=== FILE: README.md ===
# Chess coverage search: a Dafny model of its core

chess-coverage-search looks for a cheap set of chess pieces that together cover
every square of an 8x8 board. A square is covered when some piece attacks or
defends it. Pieces cost pawn 1, knight 3, bishop 3, rook 5 and queen 9. The
search is best-first over board states:

- Workers take a compact board, rebuild its support graph and propose every
  board reachable by placing one useful piece and then removing redundant
  pieces.
- A single orchestrator keeps the edge set of boards still to expand, the set
  of boards it has seen and the best score found so far. It prunes and sorts
  the edge set between dispatches.

This project models that core in Dafny:

| file | module | models |
|---|---|---|
| `errors.dfy` | `Errors` | Go's `error` returns and panics, as a `Result` with a `Fault` |
| `points.dfy` | `Points` | `chess/board.go` point arithmetic: int8 row-major points, `newPoint`, `newPointUnsafe`, `add`, `x`, `y` |
| `pieces.dfy` | `Pieces` | `chess/pieces.go`: piece values, `getCoverage`, and the pawn, knight, bishop, rook and queen coverage |
| `boards.dfy` | `Boards` | `chess/board.go`: cells, the support graph and `settleSupportGraph`, `copy`, `GetCoverageLevel`, `Score`, `MinimalBoard`, `getMinimalBoard`, `RebuildBoard` |
| `search.dfy` | `Search` | `chess/board.go`: `getAllCoverage`, `reduce`, `ProposeBoards` |
| `frontier.dfy` | `Frontier` | `chesscoverage.go`: seed, `insertBoard`, the bound update, tail prune, tail dispatch, sort window, worker filter, one orchestrator pass |
| `scenarios.dfy` | `Scenarios` | the boards of `chess/board_test.go`: the empty board, the lone queen, and the five complete boards |

How the model represents the source:

- **Boards.** A board is a row-major sequence of 64 cells. Cell (x, y) sits at
  index x*8+y, the same index `point` uses. An occupancy is the 64 pieces alone.
- **Coverage.** Coverage functions read only the occupancy, since the Go code
  only asks `isEmpty`. Each sliding-piece ray is proved equal to an independent
  reference: the k-th square in the direction, on the board, with every square
  before it empty.
- **Support graph.** The closed-form `SettledOf` is the reference definition.
  `SettleSupportGraph` is the loop of `settleSupportGraph`, and it is proved to
  compute exactly that.
- **Reduction and proposals.** `reduce` and `ProposeBoards` are recursive
  functions over that reference board. `ProposeBoards` is characterised
  exactly: its result is the set of compacted reductions of every candidate
  placement.
- **Pieces.** A piece is a byte, so values outside NONE..QUEEN exist.
  `getCoverage` reports them as an error. `GetScore` panics on them, and the
  model turns the panic into a `Failure(ScorePanic(..))` result.
- **Orchestrator.** The orchestrator's bookkeeping is a set of pure transitions
  over `State(edgeSet, seen, bound, scoreIsDirty, duplicates)`. Two things are
  parameters rather than modelled:
  - what a channel would decide, i.e. whether the work queue has room (`ready`);
  - which boards came back (`arrived`).

## Where the code and its comments differ

The model follows the code in each of these cases.

- **`reduce` can add coverage.** Its comment says a removable piece comes off
  "without effecting the coverage" (chess/board.go:331-332). Removing a piece
  can unblock a rook, bishop or queen ray, so a reduced board may cover more
  squares than before. What holds, and what `Search.Reduce` states, is that no
  covered square is lost.
- **A proposal can lose squares.** `ProposeBoards` keeps a placement when the
  new piece would cover a square nobody covers yet. Placing the piece can also
  block rays that covered other squares. A proposal therefore gains at least
  one previously uncovered square, but it need not cover a superset of the
  input's squares. `Search.IsProposal` states the gain, not a superset.
- **`reduce` has no early exit.** It explores every removable piece, not just
  the first one (chess/board.go:336-366).
- **Dispatch takes the highest heuristic.** The edge set is sorted ascending by
  heuristic and dispatch takes the last element (chesscoverage.go:206,
  293-295). That is the board with the highest heuristic value, the one the
  heuristic prefers.
- **The tail prune has no emptiness guard** (chesscoverage.go:196-200). See
  Findings.

## Model

| member | source | states |
|---|---|---|
| Points.Wrap8 | chess/board.go:80-89 | Go's int8 conversion: identity on -128..127, otherwise shifted by a multiple of 256 into that range |
| Points.Square | chess/board.go:99-107 | the point built from on-board (x, y) has x() == x and y() == y |
| Points.X | chess/board.go:99-102 | the row of every point is in 0..7 |
| Points.Y | chess/board.go:104-107 | the column of every point is in 0..7 |
| Points.NewPointUnsafe | chess/board.go:85-89 | for on-board (x, y) the point is in 0..63 and has row x and column y |
| Points.NewPoint | chess/board.go:78-83 | newPoint reports valid exactly when 0 <= x, y < 8, and then the point is in 0..63 with those coordinates |
| Points.PointCoordinatesRoundTrip | chess/board.go:85-107 | for every point 0..63, its coordinates are on the board and newPointUnsafe(p.x(), p.y()) gives p back |
| Points.Add | chess/board.go:91-97 | add reports valid exactly when (x()+dx, y()+dy) is on the board, and then the result has exactly those coordinates |
| Pieces.GetScore | chess/pieces.go:17-49 | pawn 1, knight 3, bishop 3, rook 5, queen 9; every other byte, NONE included, is a score panic |
| Pieces.Step | chess/pieces.go:75-80 | one offset step yields the single on-board square with those coordinates, or nothing |
| Pieces.PawnCoverage | chess/pieces.go:73-82 | exactly the on-board squares (x+1, y+1) and (x+1, y-1); at most 2; empty on the last row |
| Pieces.KnightCoverage | chess/pieces.go:84-111 | exactly the on-board squares a knight's jump away; at most 8 |
| Pieces.GetCoverage | chess/pieces.go:55-71 | an error exactly for a byte outside PAWN..QUEEN, naming that byte; otherwise a set without the origin |
| Pieces.Ray | chess/pieces.go:117-122 | every square of a ray lies strictly further along its direction than the origin, so the origin is never on it |
| Pieces.BishopCoverage | chess/pieces.go:113-143 | a bishop never covers its own square |
| Pieces.RookCoverage | chess/pieces.go:145-174 | a rook never covers its own square |
| Pieces.QueenCoverage | chess/pieces.go:176-182 | a queen never covers its own square |
| Pieces.Cover | chess/pieces.go:56-182 | no piece covers its own square |
| Pieces.RayBlocked | chess/pieces.go:117-122 | when the next square is occupied, the ray is that square alone |
| Pieces.RayThroughEmpty | chess/pieces.go:117-122 | when the next square is empty, the ray is that square plus the ray continuing from it |
| Pieces.RayExact | chess/pieces.go:117-122 | the loop's ray is exactly the squares k steps away, on the board, with every square before them empty |
| Pieces.BishopCoverageExact | chess/pieces.go:113-143 | bishop coverage is exactly the squares on one of the four diagonal rays with a clear path |
| Pieces.RookCoverageExact | chess/pieces.go:145-174 | rook coverage is exactly the squares on one of the four straight rays with a clear path |
| Pieces.QueenCoverageExact | chess/pieces.go:176-182 | queen coverage is exactly bishop coverage union rook coverage, i.e. any of the eight clear rays |
| Pieces.RayMonotone | chess/pieces.go:117-171 | emptying squares can only lengthen a ray |
| Pieces.CoverMonotone | chess/pieces.go:56-182 | emptying squares can only enlarge a piece's coverage |
| Pieces.RayFrame | chess/pieces.go:117-171 | a ray depends only on the squares along it |
| Pieces.CoverIgnoresOrigin | chess/pieces.go:56-182 | coverage does not depend on what stands on the origin square |
| Boards.Copy | chess/board.go:206-215 | the copy has the same pieces and no support data at all |
| Boards.Settle | chess/board.go:217-244 | succeeds exactly when every piece is known; then the board is the settled form of its pieces, supports and supportedBy are mirror images, and empty cells support nothing; otherwise the error names an unknown piece on the board |
| Boards.FirstUnknown | chess/board.go:227-235 | the first unknown piece in row-major order, the one the settle loop stops at |
| Boards.SettleSupportGraph | chess/board.go:220-244 | the clear-then-rebuild loop computes exactly the reference settled board, or the same error |
| Boards.SettleIdempotent | chess/board.go:221-225 | settling a settled board changes nothing |
| Boards.CountCoveredFrom | chess/board.go:178-187 | the count of covered squares from index i on, at most 64 - i, and maximal exactly when all of them are covered |
| Boards.CoverageLevel | chess/board.go:177-187 | the number of covered squares, in 0..64, and 64 exactly when every square is covered |
| Boards.CoveredSquaresOfSettled | chess/board.go:236-239 | on a settled board a square is covered exactly when some piece's coverage contains it |
| Boards.SumScores | chess/board.go:189-204 | succeeds exactly when every piece is known, then lies in 0..9 per square; otherwise the panic names an unknown piece present |
| Boards.Score | chess/board.go:189-204 | succeeds exactly when every piece on the board is known, then lies in 0..576; otherwise the panic names an unknown piece on the board |
| Boards.SumScoresAppend | chess/board.go:192-203 | the score of two runs of squares is the sum of their scores |
| Boards.SumScoresRepeat | chess/board.go:192-203 | n copies of one piece score n times its value |
| Boards.SumScoresEmpty | chess/board.go:194 | empty squares score nothing |
| Boards.GetMinimalBoard | chess/board.go:153-175 | the compact board has the same piece at every index, coverage equal to the covered-square count, IsSolved exactly when all 64 are covered, the score Board.Score reports and the board's heuristic; it fails, with Score's panic, exactly when a piece is unknown |
| Boards.Inflate | chess/board.go:248-251 | the inflated board holds exactly the given pieces |
| Boards.RebuildBoard | chess/board.go:246-257 | succeeds exactly when every piece is known, giving a settled board with exactly those pieces |
| Boards.CompactRoundTrip | chess/board.go:153-175 | rebuilding the compact form of a settled board gives that board back |
| Boards.CompactDeterministic | chess/board.go:163-173 | settled boards with equal pieces compact to equal values |
| Search.Without | chess/board.go:351-356 | removing a piece and resettling gives the settled board of the pieces with that square emptied |
| Search.WithoutShrinks | chess/board.go:357-360 | removing a piece strictly shrinks the set of occupied squares, so the recursion ends |
| Search.RemovalKeepsCoverage | chess/board.go:342-353 | removing a piece whose every supported square has another supporter loses no covered square |
| Search.Reduce | chess/board.go:331-372 | a non-empty list of settled boards that each keep a subset of the pieces, have no removable piece and lose no covered square; a board with nothing removable reduces to itself alone |
| Search.ReduceFrom | chess/board.go:336-366 | the reductions found from index i on are empty exactly when no piece from i on is removable, and each keeps a subset of the pieces, is locally minimal and loses no covered square |
| Search.Removable | chess/board.go:339-348 | on a settled board a piece is removable exactly when every square it covers is covered by at least two pieces |
| Search.SupportedSquaresSupported | chess/board.go:343-347 | on a settled board a piece's supports are its coverage, and each supported square lists that piece among its supporters |
| Search.ReduceFromContains | chess/board.go:336-366 | every reduction of the board without a removable piece at or after index i is among the reductions found from i |
| Search.ReduceFromOnly | chess/board.go:336-366 | every reduction found from index i is a reduction of the board without some removable piece at or after i |
| Search.ReduceExact | chess/board.go:333-372 | a board is a reduction of b exactly when it is b with nothing removable, or a reduction of b with some removable piece taken off |
| Search.GetAllCoverage | chess/board.go:119-151 | a map with exactly the five pieces as keys, each holding that piece's coverage from the square, none containing the square itself |
| Search.Placed | chess/board.go:304-310 | the placed board is the settled board of the pieces with the new piece on that square |
| Search.PlacementGains | chess/board.go:293-303 | when the new piece reaches an uncovered square, the placed board covers a square the input left uncovered |
| Search.ReductionIsProposal | chess/board.go:311-323 | each compacted reduction of a candidate placement adds at most the placed piece, gains a square, is locally minimal and carries its own cached values |
| Search.PlacementShape | chess/board.go:311-323 | every compacted reduction of a candidate placement is a proposal |
| Search.PlacementResults | chess/board.go:292-324 | every board one placement yields is a proposal |
| Search.SquareResults | chess/board.go:280-325 | every board one square yields is a proposal |
| Search.ProposeFrom | chess/board.go:279-327 | every board from the squares at or after p is a proposal |
| Search.ProposeBoards | chess/board.go:273-329 | every proposal adds at most one piece on an empty square, may remove others, covers a square the input left uncovered, is locally minimal and is compacted from its own settled board |
| Search.PlacementExact | chess/board.go:292-324 | one placement yields exactly the compacted reductions, if the piece reaches an uncovered square, and nothing otherwise |
| Search.CandidatePieces | chess/board.go:122-151 | a candidate exists on a square exactly when one of the five pieces is a candidate there |
| Search.PieceCases | chess/board.go:287-325 | on an empty square the five placements together yield exactly the boards from some candidate piece |
| Search.SquareExact | chess/board.go:280-325 | a square yields exactly the boards from its candidates; an occupied square yields none |
| Search.ProposeFromExact | chess/board.go:279-327 | the squares at or after p yield exactly the boards from candidates on those squares |
| Search.ProposeBoardsExact | chess/board.go:273-329 | ProposeBoards returns exactly the compacted reductions of all candidate placements on all empty squares, and nothing else |
| Frontier.Wrap32 | chesscoverage.go:240 | Go's int32 conversion: always in the int32 range, identity inside it |
| Frontier.Seed | chesscoverage.go:97-102 | the search starts with the empty board as the only edge and seen board, bound 28, nothing dirty |
| Frontier.InsertBoard | chesscoverage.go:300-309 | reports true exactly for an unseen board; an unseen board is appended at the tail, a seen one only increments the duplicate count; the seen set gains the board either way |
| Frontier.InsertKeepsInv | chesscoverage.go:301-309 | inserting an unsolved board keeps the edge set duplicate-free, inside the seen set and free of solved boards |
| Frontier.InsertTwice | chesscoverage.go:301-309 | inserting the same board again is a duplicate and changes nothing but the counter |
| Frontier.Ingest | chesscoverage.go:237-253 | a solved board leaves the edge and seen sets alone and lowers the bound to its score, marking it dirty, only when strictly better; an unsolved board is inserted |
| Frontier.IngestBound | chesscoverage.go:238-242 | the bound never rises, and falls exactly when a solved board beats it |
| Frontier.IngestKeepsInv | chesscoverage.go:237-253 | taking in one board keeps the frontier invariant and never shrinks the seen set |
| Frontier.IngestAllKeepsInv | chesscoverage.go:228-258 | a whole batch keeps the invariant, grows the seen set only by batch members, and only appends to the edge set |
| Frontier.IngestAll | chesscoverage.go:228-258 | the seen set grows only by boards of the batch; the edge set is only appended to, each appended board an unsolved board of the batch; edge-set growth plus new duplicates equals the number of unsolved boards in the batch; the score ends dirty if it was dirty or the bound changed |
| Frontier.IngestAllAdmits | chesscoverage.go:228-258 | every unsolved board of the batch ends up seen; every one not seen before is appended to the edge set; every appended board was not seen before |
| Frontier.IngestAllSees | chesscoverage.go:228-258 | every unsolved board of a batch ends up in the seen set |
| Frontier.IngestAllAppends | chesscoverage.go:228-258 | every unsolved board of a batch not seen before is appended to the edge set |
| Frontier.IngestAllFresh | chesscoverage.go:228-258 | every board appended across a batch was not seen before it |
| Frontier.IngestAllFrom | chesscoverage.go:228-258 | every board on the edge set after a batch was on it before or is a board of the batch |
| Frontier.IngestAllBound | chesscoverage.go:228-258 | after a batch the bound has not risen and is at most every solved score in it |
| Frontier.IngestAllNoSolved | chesscoverage.go:250-253 | a solved board never reaches the edge set |
| Frontier.PruneTailAsWrittenPanics | chesscoverage.go:196-200 | the prune as written indexes -1 exactly when every board exceeds the bound, and otherwise agrees with the corrected prune |
| Frontier.PruneTailCounterexample | chesscoverage.go:196-200 | a one-board edge set over the bound makes the prune index -1 |
| Frontier.PruneTailAsWritten | chesscoverage.go:196-200 | the only failure is the index -1 panic; otherwise the result is a non-empty prefix ending within the bound, and every dropped board exceeds it |
| Frontier.PruneTail | chesscoverage.go:195-200 | the result is a prefix of the edge set, every dropped board exceeds the bound, and a non-empty result ends within it |
| Frontier.PruneTailEmpty | chesscoverage.go:196-202 | the prune empties the edge set exactly when every board exceeds the bound |
| Frontier.PrefixKeepsInv | chesscoverage.go:196-213 | cutting the edge set's tail keeps the frontier invariant |
| Frontier.Dispatch | chesscoverage.go:202-214 | a board is sent exactly when the queue is ready and the edge set non-empty; it is the last one and only it is removed |
| Frontier.PruneAndDispatch | chesscoverage.go:194-220 | only the edge set changes and it stays a prefix; a board is sent exactly when the queue is ready and some board is within the bound; the sent board follows the kept prefix and is within the bound; whether or not one is sent, the kept edge set followed by the sent board is exactly the pruned edge set |
| Frontier.PruneAndDispatchSends | chesscoverage.go:194-220 | a sent board is within the bound, unsolved, and was on the edge set but no longer is; only boards over the bound are dropped; conversely every board at or before a board within the bound is kept or is the one sent; the invariant holds |
| Frontier.WindowOffset | chesscoverage.go:288-292 | the offset is len - (newBoards + workQueueSize) when positive and the score is not dirty, otherwise 0; it never exceeds len; the dirty flag ends cleared |
| Frontier.InsertSorted | chesscoverage.go:293-295 | inserting into a sorted sequence gives a sorted sequence with one more copy of the board |
| Frontier.SortByHeuristic | chesscoverage.go:293-295 | the result is ascending by heuristic and a permutation of the input |
| Frontier.SortWindow | chesscoverage.go:293-295 | edgeSet[:offset] is unchanged, edgeSet[offset:] is ascending by heuristic, and the multiset of boards is unchanged |
| Frontier.SortWindowMembers | chesscoverage.go:293-295 | re-sorting the window neither adds nor loses a board |
| Frontier.ResortedTail | chesscoverage.go:288-295 | after the window re-sort the last newBoards + workQueueSize boards (all of them when there are fewer) are ascending by heuristic, and the whole edge set is when the score was dirty |
| Frontier.FullSortDispatchesMax | chesscoverage.go:289-295 | after a full sort the tail, which dispatch takes, has the highest heuristic |
| Frontier.SortKeepsInv | chesscoverage.go:293-295 | re-sorting the window keeps the frontier invariant |
| Frontier.Forwarded | chesscoverage.go:166-168 | the worker forwards exactly the proposals whose score is at most the bound it read |
| Frontier.ForwardedStale | chesscoverage.go:162-168 | a stale, higher bound forwards a superset of what the current bound would |
| Frontier.WorkerOutput | chesscoverage.go:149-177 | a worker job succeeds exactly when the board's pieces are known; then a proposal of the rebuilt board is output exactly when its score is within the bound read, and nothing else is output |
| Frontier.Pass | chesscoverage.go:192-296 | a board is sent exactly when the queue is ready and some board is within the bound, and it comes from the edge set; the seen set grows only by arrived boards; the edge set ends holding only earlier or arrived boards, at most as many as both together, and not dirty |
| Frontier.PassKeepsInv | chesscoverage.go:192-296 | one orchestrator pass keeps the invariant, grows the seen set, never raises the bound, ends not dirty, and sends only a seen, unsolved board within the bound |
| Frontier.PassConserves | chesscoverage.go:192-296 | a pass keeps every board within the bound except the one sent; every unsolved arrival is seen, and every one not seen before is on the new edge set; the sent board is not; no board of the over-bound tail (a board after which every board exceeds the bound) is left |
| Frontier.PassKeepsAndAdmits | chesscoverage.go:192-296 | a pass keeps every board within the bound except the one sent, and every unsolved arrival is seen and, when new, on the edge set |
| Frontier.PassDoesNotResend | chesscoverage.go:202-214 | the board a pass dispatches is no longer on the edge set after it |
| Frontier.PruneDropsTail | chesscoverage.go:194-200 | pruning and dispatching leaves no board of the over-bound tail on the edge set |
| Frontier.PassDropsTail | chesscoverage.go:194-200 | after a whole pass no board of the over-bound tail is on the edge set |
| Frontier.PassSorts | chesscoverage.go:288-295 | after a pass the last arrived + workQueueSize boards of the edge set (all of them when there are fewer) are ascending by heuristic, and the whole edge set is when the score was dirty on entry or the bound fell |
| Scenarios.SplitScore | chess/board_test.go:81-133 | a board of n copies of one piece followed by copies of another scores their values summed |
| Scenarios.RebuiltSolved | chess/board_test.go:52-58 | a board whose pieces cover every square rebuilds to its settled form with coverage level 64 |
| Scenarios.EmptyBoardUnsupported | chess/board_test.go:8-20 | the rebuilt empty board has no supported cell |
| Scenarios.LoneQueenSettled | chess/board_test.go:21-30 | a queen placed on (0, 0) of the rebuilt empty board settles to the settled board of that one queen |
| Scenarios.LoneQueenSupports | chess/board_test.go:32-45 | the lone queen supports (i, 0), (0, i) and (i, i) for 1 <= i < 8 |
| Scenarios.CornerQueenCoverage | chess/pieces.go:176-182 | whatever else is on the board, a queen on (0, 0) covers only row 0, column 0 and the main diagonal |
| Scenarios.LoneQueenSupportsOnly | chess/board_test.go:32-45 | conversely, the lone queen supports no square off row 0, column 0 and the diagonal |
| Scenarios.RookRowSolved | chess/board_test.go:81-89 | one row of rooks covers all 64 squares and scores 40 |
| Scenarios.BishopHalfSolved | chess/board_test.go:91-99 | four rows of bishops cover all 64 squares and score 96 |
| Scenarios.RooksAndPawnsSolved | chess/board_test.go:101-113 | a row of rooks over seven rows of pawns covers all 64 squares and scores 96 |
| Scenarios.QueenRowSolved | chess/board_test.go:115-123 | one row of queens covers all 64 squares and scores 72 |
| Scenarios.AllKnightsSolved | chess/board_test.go:125-133 | a board full of knights covers all 64 squares and scores 192 |

## Left out

- **Concurrency.** Goroutines, channels, the errgroup and its context, and the
  atomics are left out (chesscoverage.go:93-125, 138-186, 188-298). The model
  keeps only what the orchestrator and a worker compute.
- **Channel decisions are parameters.** Whether the work queue accepts a board
  is the `ready` parameter. The boards drained from the result queue are the
  `arrived` sequence.
- **Termination.** The termination test and the shutdown drain
  (chesscoverage.go:259-282) are left out, because they depend only on queue
  lengths and counters.
- **Known issues in that plumbing** are not modelled:
  - `outstandingJobs` is decremented twice per job (chesscoverage.go:150, 175);
  - the worker drops its own errors (chesscoverage.go:178-179);
  - the drawer reads `IsSolved` before checking `ok` (chesscoverage.go:320-323).
- **Drawer, flags and profiling.** The board drawer, command-line flags,
  profiling and file I/O (chesscoverage.go:24-71, 312-339) are left out.
  Forwarding solved boards to the drawer is left out with them.
- **Counters.** The `processed` counter is left out. The duplicate counter is
  modelled.
- **Heuristic.** The float32 heuristic (chesscoverage.go:129-136) is an opaque
  function from a board to an integer key. Float rounding is not modelled.
  The real value is NaN (0/0) on a board that scores 0, which has no pieces.
  No stored heuristic is NaN or Inf: the seed's heuristic is the zero value
  (chesscoverage.go:100), and ProposeBoards computes it only for boards that
  cover a square, so they hold a piece. Only rendering the seed computes NaN.
  The drawer may be handed the dispatched seed (chesscoverage.go:206-211), and
  `Board.String` calls the heuristic (chess/board.go:391). Rendering is left
  out below.
- **Heuristic errors.** The heuristic's error path is unreachable, because
  `Score` never returns an error: `GetScore` panics first.
- **Sort order and stability.** `sort.Slice` is unstable. The model fixes one
  sorted order, and only that order's ascending-by-heuristic property and the
  multiset are stated.
- **Set semantics.** `MinimalBoardSet` is a Dafny `set`, and map iteration order
  in `getAllCoverage` and `ProposeBoards` is irrelevant. Proposals are
  characterised as a set, so no order is modelled.
- **Rendering.** `MinimalBoard.String`, `Board.String` and `GetRune` are text
  rendering only (chess/board.go:259-271, 374-400; chess/pieces.go:26-41,
  51-53).
- **Cell allocation and map sizing.** Heap-allocated `*cell` values and map allocation sizes
  (chess/board.go:56-76) are representation details.
- **Board size.** The board size is fixed at 8. The int8 comment
  (chess/board.go:22-25) claims sizes up to 15 work, but indices pass 127 once
  the size reaches 12. That is not modelled.
- **Error paths.** Search.Reduce, Search.ProposeBoards and
  Frontier.WorkerOutput's proposals require or obtain a settled board with
  known pieces, which is how the source always calls them. Their error returns
  for unknown pieces are therefore unreachable and not modelled.
- Frontier.Forwarded: takes one bound read per job. The worker reloads
  currBestScore for each proposal (chesscoverage.go:167), so the bound can
  fall partway through a job. By Frontier.ForwardedStale, what such a job
  forwards lies between what the last read and the first read would forward.
- Frontier.IngestBound: requires a score of at least -2^31. Every score the
  source computes is a non-negative sum of piece values.
- Frontier.IngestAllBound: requires non-negative scores, which every board
  built by getMinimalBoard has.
- Frontier.PassKeepsInv: requires non-negative scores in the batch, for the
  same reason.
- Search.IsProposal: states that a proposal gains an uncovered square, not
  that it keeps every covered one, because placing a piece can block rays.

## Findings

| source | as written | input that shows it | evidently intended | confidence | as-written member | corrected member |
|---|---|---|---|---|---|---|
| chesscoverage.go:196-200 | the prune loop decrements `tailIndex` while `edgeSet[tailIndex].Score` exceeds the bound, with no check that the index stays at 0 or above | an edge set of one board with score 28 after the bound has fallen to 27 (any non-empty edge set whose every board exceeds the bound) reads `edgeSet[-1]` and panics. The bound falls only when a solved board scores strictly below it. With the hard-coded start of 28 that needs a solution below 28, which the comment at chesscoverage.go:94-96 says does not exist. With a higher starting bound the state is easy to reach | stop once the edge set is empty, leave it empty, and skip dispatch | not executed | Frontier.PruneTailAsWritten, shown by Frontier.PruneTailCounterexample and Frontier.PruneTailAsWrittenPanics | Frontier.PruneTail, with Frontier.PruneTailEmpty; Frontier.PruneAndDispatch and Frontier.Pass use it |

=== FILE: boards.dfy ===
/** The working board, its support graph, its metrics, and the compact form it
    is stored in between expansions (chess/board.go). */
module Boards {
  import opened Errors
  import opened Points
  import opened Pieces

  /** cell: the piece on a square, the squares that piece covers (supports) and
      the squares whose pieces cover this one (supportedBy). */
  datatype Cell = Cell(piece: Piece, supports: set<Point>, supportedBy: set<Point>)

  /** Board: the 8x8 grid of cells, kept row-major: cell (x, y) at x*8 + y. */
  type Board = b: seq<Cell> | |b| == 64 witness seq(64, _ => Cell(0, {}, {}))

  /** The pieces of a board. */
  function PiecesOf(b: Board): (occ: Occupancy)
    ensures forall p: Point :: occ[p] == b[p].piece
  {
    seq(64, i requires 0 <= i < 64 => b[i].piece)
  }

  /** A byte that is neither NONE nor one of the five pieces. */
  predicate IsUnknown(v: Piece) {
    v != NONE && !IsPiece(v)
  }

  /** Every square holds NONE or one of the five pieces. */
  predicate AllKnown(occ: Occupancy) {
    forall p: Point :: !IsUnknown(occ[p])
  }

  /** The squares the piece on s covers; none for an empty square. */
  function CoverOf(occ: Occupancy, s: Point): set<Point> {
    if IsPiece(occ[s]) then Cover(occ, s, occ[s]) else {}
  }

  /** The squares before `bound` (row-major) whose piece covers q. */
  function SupportersBelow(occ: Occupancy, q: Point, bound: int): set<Point> {
    set s: Point | 0 <= s < 64 && s < bound && q in CoverOf(occ, s)
  }

  /** The squares whose piece covers q. */
  function SupportersOf(occ: Occupancy, q: Point): set<Point> {
    SupportersBelow(occ, q, 64)
  }

  /** The board with the support graph that the occupancy determines. */
  function SettledOf(occ: Occupancy): Board {
    seq(64, q requires 0 <= q < 64 => Cell(occ[q], CoverOf(occ, q), SupportersOf(occ, q)))
  }

  /** The support graph of b is the one its pieces determine. */
  predicate IsSettled(b: Board) {
    AllKnown(PiecesOf(b)) && b == SettledOf(PiecesOf(b))
  }

  /** The squares some piece covers. */
  function CoveredSquares(b: Board): set<Point> {
    set q: Point | 0 <= q < 64 && b[q].supportedBy != {}
  }

  /** cell.copy: the piece only, no support. */
  function CopyCell(c: Cell): Cell {
    Cell(c.piece, {}, {})
  }

  /** Board.copy: the same pieces, with every support set empty. */
  function Copy(b: Board): (r: Board)
    ensures PiecesOf(r) == PiecesOf(b)
    ensures forall p: Point :: r[p].supports == {} && r[p].supportedBy == {}
  {
    seq(64, i requires 0 <= i < 64 => CopyCell(b[i]))
  }

  /** The first square at or after i, row-major, holding an unknown piece. */
  function FirstUnknown(occ: Occupancy, i: nat): (k: Point)
    requires i <= 64
    requires exists p: Point :: i <= p && IsUnknown(occ[p])
    ensures i <= k && IsUnknown(occ[k])
    ensures forall j: Point :: i <= j < k ==> !IsUnknown(occ[j])
    decreases 64 - i
  {
    if IsUnknown(occ[i]) then i else FirstUnknown(occ, i + 1)
  }

  /** settleSupportGraph, as the relation it establishes: every support set is
      rebuilt from the pieces alone; a square supports q exactly when q supports
      back to it; empty squares support nothing.  The first unknown piece in
      row-major order makes it fail. */
  function Settle(b: Board): (r: Result<Board>)
    ensures r.Success? <==> AllKnown(PiecesOf(b))
    ensures r.Success? ==> IsSettled(r.value) && PiecesOf(r.value) == PiecesOf(b)
    ensures r.Success? ==> forall p: Point, q: Point :: q in r.value[p].supports <==> p in r.value[q].supportedBy
    ensures r.Success? ==> forall p: Point :: r.value[p].piece == NONE ==> r.value[p].supports == {}
    ensures r.Failure? ==> exists p: Point :: IsUnknown(b[p].piece) && r.error == UnknownPiece(b[p].piece)
  {
    var occ := PiecesOf(b);
    if AllKnown(occ) then
      assert PiecesOf(SettledOf(occ)) == occ;
      Success(SettledOf(occ))
    else
      Failure(UnknownPiece(occ[FirstUnknown(occ, 0)]))
  }

  /** Adding square p's contribution to the supporters of q. */
  lemma SupportersBelowStep(occ: Occupancy, q: Point, p: Point)
    ensures SupportersBelow(occ, q, p + 1) == SupportersBelow(occ, q, p) + (if q in CoverOf(occ, p) then {p} else {})
  {
  }

  /** settleSupportGraph as the Go code runs it: clear every cell's support,
      then for each occupied square, row-major, compute the piece's coverage,
      record it as the square's supports, and add the square to the supportedBy
      set of every covered square.  The result is exactly the closed form. */
  method SettleSupportGraph(b: Board) returns (r: Result<Board>)
    ensures r == Settle(b)
  {
    var occ := PiecesOf(b);
    var cells: Board := Copy(b);
    var p := 0;
    while p < 64
      invariant 0 <= p <= 64
      invariant PiecesOf(cells) == occ
      invariant forall j: Point :: j < p ==> !IsUnknown(occ[j])
      invariant forall q: Point :: cells[q].supports == (if q < p then CoverOf(occ, q) else {})
      invariant forall q: Point :: cells[q].supportedBy == SupportersBelow(occ, q, p)
    {
      if occ[p] != NONE {
        var coverage := GetCoverage(occ, p, occ[p]);
        if coverage.Failure? {
          assert FirstUnknown(occ, 0) == p;
          return Failure(coverage.error);
        }
        cells := cells[p := cells[p].(supports := coverage.value)];
        var rest := coverage.value;
        while rest != {}
          invariant rest <= coverage.value
          invariant PiecesOf(cells) == occ
          invariant forall q: Point :: cells[q].supports == (if q <= p then CoverOf(occ, q) else {})
          invariant forall q: Point :: cells[q].supportedBy
                      == SupportersBelow(occ, q, p) + (if q in coverage.value - rest then {p} else {})
          decreases rest
        {
          var q :| q in rest;
          cells := cells[q := cells[q].(supportedBy := cells[q].supportedBy + {p})];
          rest := rest - {q};
        }
      }
      forall q: Point
        ensures cells[q].supportedBy == SupportersBelow(occ, q, p + 1)
      {
        SupportersBelowStep(occ, q, p);
      }
      p := p + 1;
    }
    assert cells == SettledOf(occ);
    return Success(cells);
  }

  /** Settling a settled board changes nothing: settleSupportGraph twice in a
      row yields the same support sets as once. */
  lemma SettleIdempotent(b: Board)
    requires Settle(b).Success?
    ensures Settle(Settle(b).value) == Settle(b)
  {
  }

  // ------------------------------------------------------------ coverage level

  /** The covered squares at or after i. */
  function CoveredFrom(b: Board, i: int): set<Point> {
    set q: Point | 0 <= q < 64 && i <= q && b[q].supportedBy != {}
  }

  /** The loop of GetCoverageLevel from square i on: one for every cell with a
      non-empty supportedBy set. */
  function CountCoveredFrom(b: Board, i: nat): (r: nat)
    requires i <= 64
    ensures r == |CoveredFrom(b, i)|
    ensures r <= 64 - i
    ensures r == 64 - i <==> forall q: Point :: i <= q ==> b[q].supportedBy != {}
    decreases 64 - i
  {
    if i == 64 then
      assert CoveredFrom(b, i) == {};
      0
    else
      var rest := CountCoveredFrom(b, i + 1);
      if b[i].supportedBy != {} then
        assert CoveredFrom(b, i) == CoveredFrom(b, i + 1) + {i};
        rest + 1
      else
        assert CoveredFrom(b, i) == CoveredFrom(b, i + 1);
        rest
  }

  /** GetCoverageLevel: the number of covered cells, between 0 and 64, and 64
      exactly when every cell is covered. */
  function CoverageLevel(b: Board): (r: nat)
    ensures r == |CoveredSquares(b)| && r <= 64
    ensures r == 64 <==> forall q: Point :: b[q].supportedBy != {}
  {
    assert CoveredFrom(b, 0) == CoveredSquares(b);
    CountCoveredFrom(b, 0)
  }

  /** On a settled board the covered squares are exactly the squares some piece's
      coverage reaches. */
  lemma CoveredSquaresOfSettled(b: Board, q: Point)
    requires IsSettled(b)
    ensures q in CoveredSquares(b) <==> exists s: Point :: q in CoverOf(PiecesOf(b), s)
  {
    var occ := PiecesOf(b);
    if exists s: Point :: q in CoverOf(occ, s) {
      var s: Point :| q in CoverOf(occ, s);
      assert s in SupportersOf(occ, q);
    }
  }

  // --------------------------------------------------------------------- score

  /** The loop of Board.Score over a row-major run of pieces: the values of the
      pieces added up, panicking at the first unknown piece. */
  function SumScores(s: seq<Piece>): (r: Result<int>)
    ensures r.Success? <==> forall i :: 0 <= i < |s| ==> !IsUnknown(s[i])
    ensures r.Success? ==> 0 <= r.value <= 9 * |s|
    ensures r.Failure? ==> exists i :: 0 <= i < |s| && IsUnknown(s[i]) && r.error == ScorePanic(s[i])
  {
    if |s| == 0 then Success(0)
    else if s[0] == NONE then
      var rest := SumScores(s[1..]);
      assert forall i :: 1 <= i < |s| ==> s[i] == s[1..][i - 1];
      rest
    else
      match GetScore(s[0])
      case Failure(e) => Failure(e)
      case Success(v) =>
        var rest := SumScores(s[1..]);
        assert forall i :: 1 <= i < |s| ==> s[i] == s[1..][i - 1];
        if rest.Failure? then rest else Success(v + rest.value)
  }

  /** Board.Score: the sum of the piece values on the board, or the panic of
      the first unknown piece. */
  function Score(b: Board): (r: Result<int>)
    ensures r.Success? <==> AllKnown(PiecesOf(b))
    ensures r.Success? ==> 0 <= r.value <= 9 * 64
    ensures r.Failure? ==> exists p: Point :: IsUnknown(b[p].piece) && r.error == ScorePanic(b[p].piece)
  {
    SumScores(PiecesOf(b))
  }

  /** Scores add up over consecutive runs of squares. */
  lemma {:induction false} SumScoresAppend(a: seq<Piece>, c: seq<Piece>)
    requires SumScores(a).Success? && SumScores(c).Success?
    ensures SumScores(a + c) == Success(SumScores(a).value + SumScores(c).value)
  {
    if |a| == 0 {
      assert a + c == c;
    } else {
      assert (a + c)[0] == a[0];
      assert (a + c)[1..] == a[1..] + c;
      assert forall i :: 0 <= i < |a[1..]| ==> a[1..][i] == a[i + 1];
      SumScoresAppend(a[1..], c);
    }
  }

  /** n copies of one piece score n times its value. */
  lemma {:induction false} SumScoresRepeat(piece: Piece, n: nat)
    requires IsPiece(piece)
    ensures SumScores(seq(n, _ => piece)) == Success(n * GetScore(piece).value)
  {
    if n > 0 {
      assert seq(n, _ => piece)[1..] == seq(n - 1, _ => piece);
      SumScoresRepeat(piece, n - 1);
    }
  }

  /** Empty squares score nothing. */
  lemma {:induction false} SumScoresEmpty(n: nat)
    ensures SumScores(seq(n, _ => NONE)) == Success(0)
  {
    if n > 0 {
      assert seq(n, _ => NONE)[1..] == seq(n - 1, _ => NONE);
      SumScoresEmpty(n - 1);
    }
  }

  // ------------------------------------------------------------- compact form

  /** MinimalBoard: the pieces plus four cached values.  Equality is Go struct
      equality: all five fields. */
  datatype MinimalBoard = MinimalBoard(board: Occupancy, heuristic: int, isSolved: bool, score: int, coverage: int)

  /** MinimalBoard{}: the empty board with every cached value zero. */
  function EmptyMinimalBoard(): MinimalBoard {
    MinimalBoard(seq(64, _ => NONE), 0, false, 0, 0)
  }

  /** The search heuristic, left opaque: any function from a board to a totally
      ordered key. */
  type Heuristic = Board -> int

  /** getMinimalBoard: the pieces, row-major, with the heuristic, the score, the
      coverage level and whether all 64 squares are covered.  Scoring panics on
      an unknown piece. */
  function GetMinimalBoard(b: Board, heuristic: Heuristic): (r: Result<MinimalBoard>)
    ensures r.Success? <==> AllKnown(PiecesOf(b))
    ensures r.Failure? ==> r.error.ScorePanic? && Score(b) == Failure(r.error)
    ensures r.Success? ==> forall p: Point :: r.value.board[p] == b[p].piece
    ensures r.Success? ==> r.value.coverage == |CoveredSquares(b)| && 0 <= r.value.coverage <= 64
    ensures r.Success? ==> (r.value.isSolved <==> forall q: Point :: b[q].supportedBy != {})
    ensures r.Success? ==> Score(b) == Success(r.value.score) && 0 <= r.value.score <= 9 * 64
    ensures r.Success? ==> r.value.heuristic == heuristic(b)
  {
    var heuristicScore := heuristic(b);
    match Score(b)
    case Failure(e) => Failure(e)
    case Success(score) =>
      var level := CoverageLevel(b);
      Success(MinimalBoard(PiecesOf(b), heuristicScore, level == 64, score, level))
  }

  /** A fresh board holding the given pieces and no support. */
  function Inflate(occ: Occupancy): (b: Board)
    ensures PiecesOf(b) == occ
  {
    seq(64, i requires 0 <= i < 64 => Cell(occ[i], {}, {}))
  }

  /** RebuildBoard: the pieces of a compact board, with the support graph
      settled.  It fails only for an unknown piece. */
  function RebuildBoard(m: MinimalBoard): (r: Result<Board>)
    ensures r.Success? <==> AllKnown(m.board)
    ensures r.Success? ==> IsSettled(r.value) && PiecesOf(r.value) == m.board
  {
    Settle(Inflate(m.board))
  }

  /** Compaction round trip: re-inflating the compact form of a settled board
      gives back the same board, support graph included. */
  lemma CompactRoundTrip(b: Board, heuristic: Heuristic)
    requires IsSettled(b)
    ensures GetMinimalBoard(b, heuristic).Success?
    ensures RebuildBoard(GetMinimalBoard(b, heuristic).value) == Success(b)
  {
    var m := GetMinimalBoard(b, heuristic).value;
    assert m.board == PiecesOf(b);
  }

  /** Two settled boards with the same pieces compact to the same value, so the
      seen set recognises the second. */
  lemma CompactDeterministic(b1: Board, b2: Board, heuristic: Heuristic)
    requires IsSettled(b1) && IsSettled(b2) && PiecesOf(b1) == PiecesOf(b2)
    ensures GetMinimalBoard(b1, heuristic) == GetMinimalBoard(b2, heuristic)
  {
  }
}

=== FILE: errors.dfy ===
/** Failure values shared by every part of the model.  The Go program reports a
    problem either through an `error` result or by panicking; both end the
    current expansion, and the model keeps them apart so that a contract can say
    which one an operation produces. */
module Errors {

  datatype Fault =
      /** getCoverage's error for a piece value outside PAWN..QUEEN */
    | UnknownPiece(piece: int)
      /** GetScore's panic for a piece value it has no score for */
    | ScorePanic(piece: int)
      /** a Go run-time panic: slice index out of range */
    | IndexPanic(index: int)

  datatype Result<+T> = Success(value: T) | Failure(error: Fault)

  datatype Option<+T> = None | Some(value: T)
}

=== FILE: frontier.dfy ===
/** The orchestrator's bookkeeping in chesscoverage.go, taken as pure state
    transitions: the seen set and the edge set of compact boards still to be
    expanded, the best-score bound, the tail prune, the tail dispatch, the
    ingestion of boards coming back from the workers, and the partial re-sort
    of the edge set.  Channels, goroutines and timing are stripped away; what
    a channel operation would decide (whether the work queue has room, which
    boards arrive) becomes a parameter. */
module Frontier {
  import opened Errors
  import opened Pieces
  import opened Boards
  import opened Search

  /** The best score the search accepts at the start. */
  const InitialBound := 28

  /** Go's int32 conversion: the value modulo 2^32, read as a signed number. */
  function Wrap32(v: int): (r: int)
    ensures -0x8000_0000 <= r < 0x8000_0000
    ensures -0x8000_0000 <= v < 0x8000_0000 ==> r == v
  {
    var m := v % 0x1_0000_0000;
    if m < 0x8000_0000 then m else m - 0x1_0000_0000
  }

  /** The orchestrator's state: the edge set (expanded from its tail), the
      set of boards ever admitted, the bound held in currBestScore, the
      scoreIsDirty flag and the duplicate counter. */
  datatype State = State(edgeSet: seq<MinimalBoard>, seen: set<MinimalBoard>, bound: int,
                         scoreIsDirty: bool, duplicates: nat)

  /** Every element occurs at most once. */
  ghost predicate Distinct(edge: seq<MinimalBoard>) {
    forall m :: multiset(edge)[m] <= 1
  }

  /** The frontier invariant: the edge set has no repeated board, every board
      in it has been seen, none of them is solved, and the bound is an int32. */
  ghost predicate Inv(s: State) {
    && Distinct(s.edgeSet)
    && (forall i :: 0 <= i < |s.edgeSet| ==> s.edgeSet[i] in s.seen && !s.edgeSet[i].isSolved)
    && -0x8000_0000 <= s.bound < 0x8000_0000
  }

  /** The search root: the empty compact board, seen and on the edge, with
      the bound at its initial value. */
  function Seed(): (s: State)
    ensures Inv(s)
    ensures s.edgeSet == [EmptyMinimalBoard()] && s.seen == {EmptyMinimalBoard()}
    ensures s.bound == InitialBound && !s.scoreIsDirty
  {
    var s := State([EmptyMinimalBoard()], {EmptyMinimalBoard()}, InitialBound, false, 0);
    assert multiset(s.edgeSet) == multiset{EmptyMinimalBoard()};
    s
  }

  // ------------------------------------------------------------ insertBoard

  /** insertBoard: a board not seen before joins the seen set and the tail of
      the edge set; a board already seen only bumps the duplicate counter.
      The boolean reports which happened. */
  function InsertBoard(s: State, m: MinimalBoard): (r: (State, bool))
    ensures r.1 <==> m !in s.seen
    ensures r.0.seen == s.seen + {m} && r.0.bound == s.bound && r.0.scoreIsDirty == s.scoreIsDirty
    ensures r.1 ==> r.0.edgeSet == s.edgeSet + [m] && r.0.duplicates == s.duplicates
    ensures !r.1 ==> r.0.edgeSet == s.edgeSet && r.0.duplicates == s.duplicates + 1
  {
    if m !in s.seen then
      (s.(seen := s.seen + {m}, edgeSet := s.edgeSet + [m]), true)
    else
      (s.(duplicates := s.duplicates + 1), false)
  }

  /** A board on the edge set is in the seen set, so it occurs once only. */
  lemma {:induction false} SeenNotInEdge(s: State, m: MinimalBoard)
    requires Inv(s) && m !in s.seen
    ensures multiset(s.edgeSet)[m] == 0
  {
    assert m !in s.edgeSet;
  }

  /** Inserting an unsolved board keeps the invariant. */
  lemma {:induction false} InsertKeepsInv(s: State, m: MinimalBoard)
    requires Inv(s) && !m.isSolved
    ensures Inv(InsertBoard(s, m).0)
  {
    if m !in s.seen {
      SeenNotInEdge(s, m);
      var e := s.edgeSet + [m];
      assert multiset(e) == multiset(s.edgeSet) + multiset{m};
      forall i | 0 <= i < |e|
        ensures e[i] in s.seen + {m} && !e[i].isSolved
      {
        if i < |s.edgeSet| {
          assert e[i] == s.edgeSet[i];
        }
      }
    }
  }

  /** Offering the same board a second time changes nothing but the
      duplicate counter. */
  lemma InsertTwice(s: State, m: MinimalBoard)
    ensures var once := InsertBoard(s, m).0;
            var twice := InsertBoard(once, m);
            !twice.1 && twice.0 == once.(duplicates := once.duplicates + 1)
  {
  }

  // --------------------------------------------------------------- ingestion

  /** One board from the workers: a solved board lowers the bound when its
      score is strictly smaller (stored as an int32) and marks the score
      dirty; any other board goes through insertBoard. */
  function Ingest(s: State, m: MinimalBoard): (r: State)
    ensures m.isSolved ==> r.edgeSet == s.edgeSet && r.seen == s.seen && r.duplicates == s.duplicates
    ensures m.isSolved && m.score < s.bound ==> r.bound == Wrap32(m.score) && r.scoreIsDirty
    ensures !(m.isSolved && m.score < s.bound) ==> r.bound == s.bound && r.scoreIsDirty == s.scoreIsDirty
    ensures !m.isSolved ==> r == InsertBoard(s, m).0
  {
    if m.isSolved then
      if m.score < s.bound then s.(bound := Wrap32(m.score), scoreIsDirty := true) else s
    else
      InsertBoard(s, m).0
  }

  /** The bound never rises, and falls exactly when a solved board with a
      smaller score arrives (scores are far inside the int32 range). */
  lemma IngestBound(s: State, m: MinimalBoard)
    requires -0x8000_0000 <= m.score
    ensures Ingest(s, m).bound <= s.bound
    ensures Ingest(s, m).bound < s.bound <==> m.isSolved && m.score < s.bound
  {
  }

  /** Ingesting a board keeps the invariant, never shrinks the seen set and
      never puts a solved board on the edge set. */
  lemma IngestKeepsInv(s: State, m: MinimalBoard)
    requires Inv(s)
    ensures Inv(Ingest(s, m)) && s.seen <= Ingest(s, m).seen
  {
    if !m.isSolved {
      InsertKeepsInv(s, m);
    }
  }

  /** How many boards of a batch are unsolved. */
  function Unsolved(ms: seq<MinimalBoard>): nat {
    if |ms| == 0 then 0 else (if ms[0].isSolved then 0 else 1) + Unsolved(ms[1..])
  }

  /** The inner loop of the orchestrator: every board waiting on the queue,
      in arrival order.  Boards are only appended to the edge set, each one an
      unsolved board of the batch, and every unsolved board of the batch is
      either appended or counted as a duplicate. */
  function IngestAll(s: State, ms: seq<MinimalBoard>): (r: State)
    ensures s.seen <= r.seen <= s.seen + set m | m in ms
    ensures s.edgeSet <= r.edgeSet
    ensures forall i :: |s.edgeSet| <= i < |r.edgeSet| ==> r.edgeSet[i] in ms && !r.edgeSet[i].isSolved
    ensures s.duplicates <= r.duplicates
    ensures |r.edgeSet| + r.duplicates == |s.edgeSet| + s.duplicates + Unsolved(ms)
    ensures s.scoreIsDirty || r.bound != s.bound ==> r.scoreIsDirty
    decreases |ms|
  {
    if |ms| == 0 then s
    else
      var r := IngestAll(Ingest(s, ms[0]), ms[1..]);
      assert forall m :: m in ms[1..] ==> m in ms;
      r
  }

  /** Every unsolved board of a batch ends up in the seen set. */
  lemma {:induction false} IngestAllSees(s: State, ms: seq<MinimalBoard>)
    ensures forall m :: m in ms && !m.isSolved ==> m in IngestAll(s, ms).seen
    decreases |ms|
  {
    if |ms| > 0 {
      var next := Ingest(s, ms[0]);
      IngestAllSees(next, ms[1..]);
      forall m | m in ms && !m.isSolved
        ensures m in IngestAll(s, ms).seen
      {
        if m != ms[0] {
          assert m in ms[1..];
        }
      }
    }
  }

  /** Only boards not seen before are appended to the edge set. */
  lemma {:induction false} IngestAllFresh(s: State, ms: seq<MinimalBoard>)
    ensures forall i :: |s.edgeSet| <= i < |IngestAll(s, ms).edgeSet| ==> IngestAll(s, ms).edgeSet[i] !in s.seen
    decreases |ms|
  {
    if |ms| > 0 {
      var next := Ingest(s, ms[0]);
      var r := IngestAll(next, ms[1..]);
      IngestAllFresh(next, ms[1..]);
      assert IngestAll(s, ms) == r && s.seen <= next.seen;
      forall i | |s.edgeSet| <= i < |r.edgeSet|
        ensures r.edgeSet[i] !in s.seen
      {
        if i < |next.edgeSet| {
          assert !ms[0].isSolved && ms[0] !in s.seen;
          assert next.edgeSet == s.edgeSet + [ms[0]];
          assert r.edgeSet[i] == next.edgeSet[i] == ms[0];
        } else {
          assert r.edgeSet[i] !in next.seen;
        }
      }
    }
  }

  /** Every unsolved board of a batch not seen before is appended. */
  lemma {:induction false} IngestAllAppends(s: State, ms: seq<MinimalBoard>)
    ensures forall m :: m in ms && !m.isSolved && m !in s.seen ==> m in IngestAll(s, ms).edgeSet[|s.edgeSet|..]
    decreases |ms|
  {
    if |ms| > 0 {
      var next := Ingest(s, ms[0]);
      var r := IngestAll(next, ms[1..]);
      assert IngestAll(s, ms) == r;
      IngestAllAppends(next, ms[1..]);
      forall m | m in ms && !m.isSolved && m !in s.seen
        ensures m in r.edgeSet[|s.edgeSet|..]
      {
        var tail := r.edgeSet[|s.edgeSet|..];
        if m == ms[0] {
          assert tail[0] == next.edgeSet[|s.edgeSet|] == m;
        } else {
          assert m in ms[1..] && m !in next.seen;
          var j :| 0 <= j < |r.edgeSet[|next.edgeSet|..]| && r.edgeSet[|next.edgeSet|..][j] == m;
          assert tail[|next.edgeSet| - |s.edgeSet| + j] == m;
        }
      }
    }
  }

  /** Admission across a batch: every unsolved board of the batch ends up
      seen, every one not seen before is appended to the edge set, and only
      such boards are appended. */
  lemma IngestAllAdmits(s: State, ms: seq<MinimalBoard>)
    ensures var r := IngestAll(s, ms);
            && (forall m :: m in ms && !m.isSolved ==> m in r.seen)
            && (forall m :: m in ms && !m.isSolved && m !in s.seen ==> m in r.edgeSet[|s.edgeSet|..])
            && (forall i :: |s.edgeSet| <= i < |r.edgeSet| ==> r.edgeSet[i] !in s.seen)
  {
    IngestAllSees(s, ms);
    IngestAllAppends(s, ms);
    IngestAllFresh(s, ms);
  }

  /** Ingesting a batch keeps the invariant, grows the seen set by at most the
      batch, and keeps every board already on the edge set in place. */
  lemma {:induction false} IngestAllKeepsInv(s: State, ms: seq<MinimalBoard>)
    requires Inv(s)
    ensures Inv(IngestAll(s, ms))
    ensures s.seen <= IngestAll(s, ms).seen <= s.seen + set m | m in ms
    ensures s.edgeSet <= IngestAll(s, ms).edgeSet
    decreases |ms|
  {
    if |ms| > 0 {
      IngestKeepsInv(s, ms[0]);
      IngestAllKeepsInv(Ingest(s, ms[0]), ms[1..]);
      assert forall m :: m in ms[1..] ==> m in ms;
    }
  }

  /** Across a batch the bound never rises, and a solved board in the batch
      whose score is below the bound leaves the bound at or below that score. */
  lemma {:induction false} IngestAllBound(s: State, ms: seq<MinimalBoard>)
    requires forall i :: 0 <= i < |ms| ==> 0 <= ms[i].score
    ensures IngestAll(s, ms).bound <= s.bound
    ensures forall i :: 0 <= i < |ms| && ms[i].isSolved && ms[i].score < 0x8000_0000 ==>
              IngestAll(s, ms).bound <= ms[i].score
    decreases |ms|
  {
    if |ms| > 0 {
      IngestBound(s, ms[0]);
      var next := Ingest(s, ms[0]);
      IngestAllBound(next, ms[1..]);
      forall i | 0 <= i < |ms| && ms[i].isSolved && ms[i].score < 0x8000_0000
        ensures IngestAll(s, ms).bound <= ms[i].score
      {
        if i > 0 {
          assert ms[1..][i - 1] == ms[i];
        }
      }
    }
  }

  /** Solved boards never reach the edge set: whatever arrives, every board
      on the resulting edge set is unsolved. */
  lemma IngestAllNoSolved(s: State, ms: seq<MinimalBoard>)
    requires Inv(s)
    ensures forall i :: 0 <= i < |IngestAll(s, ms).edgeSet| ==> !IngestAll(s, ms).edgeSet[i].isSolved
  {
    IngestAllKeepsInv(s, ms);
  }

  // ---------------------------------------------------------------- pruning

  /** The tail prune exactly as written: starting from the last index, drop
      the tail while its score exceeds the bound.  Nothing stops the index at
      zero, so when every board exceeds the bound the loop reads index -1 and
      Go panics.  The code runs only on a non-empty edge set. */
  function PruneTailAsWritten(edge: seq<MinimalBoard>, bound: int): (r: Result<seq<MinimalBoard>>)
    requires |edge| > 0
    ensures r.Failure? ==> r.error == IndexPanic(-1)
    ensures r.Success? ==> 0 < |r.value| && r.value <= edge && r.value[|r.value| - 1].score <= bound
    ensures r.Success? ==> forall i :: |r.value| <= i < |edge| ==> edge[i].score > bound
    decreases |edge|
  {
    var tail := |edge| - 1;
    if edge[tail].score > bound then
      if tail == 0 then Failure(IndexPanic(-1)) else PruneTailAsWritten(edge[..tail], bound)
    else Success(edge)
  }

  /** The as-written prune panics exactly when no board is within the bound,
      and otherwise agrees with the corrected prune. */
  lemma {:induction false} PruneTailAsWrittenPanics(edge: seq<MinimalBoard>, bound: int)
    requires |edge| > 0
    ensures PruneTailAsWritten(edge, bound).Failure?
        <==> forall i :: 0 <= i < |edge| ==> edge[i].score > bound
    ensures PruneTailAsWritten(edge, bound).Failure? ==> PruneTailAsWritten(edge, bound).error == IndexPanic(-1)
    ensures PruneTailAsWritten(edge, bound).Success? ==> PruneTailAsWritten(edge, bound).value == PruneTail(edge, bound)
    decreases |edge|
  {
    var tail := |edge| - 1;
    if edge[tail].score > bound && tail > 0 {
      PruneTailAsWrittenPanics(edge[..tail], bound);
      assert forall i :: 0 <= i < tail ==> edge[..tail][i] == edge[i];
    }
  }

  /** A one-board edge set whose board is over the bound: the index reaches
      -1. */
  lemma PruneTailCounterexample(m: MinimalBoard)
    ensures PruneTailAsWritten([m], m.score - 1) == Failure(IndexPanic(-1))
  {
  }

  /** The corrected prune: drop the tail while it exceeds the bound, stopping
      at an empty edge set. */
  function PruneTail(edge: seq<MinimalBoard>, bound: int): (r: seq<MinimalBoard>)
    ensures r <= edge
    ensures forall i :: |r| <= i < |edge| ==> edge[i].score > bound
    ensures |r| == 0 || r[|r| - 1].score <= bound
    decreases |edge|
  {
    if |edge| == 0 then []
    else if edge[|edge| - 1].score > bound then PruneTail(edge[..|edge| - 1], bound)
    else edge
  }

  /** The corrected prune keeps exactly the longest prefix that ends within
      the bound: the result is empty exactly when no board is within it. */
  lemma PruneTailEmpty(edge: seq<MinimalBoard>, bound: int)
    ensures |PruneTail(edge, bound)| == 0 <==> forall i :: 0 <= i < |edge| ==> edge[i].score > bound
  {
  }

  /** A prefix of a sequence without repeats has none either, and holds only
      elements of the sequence. */
  lemma PrefixDistinct(edge: seq<MinimalBoard>, k: nat)
    requires k <= |edge| && Distinct(edge)
    ensures Distinct(edge[..k])
  {
    assert edge == edge[..k] + edge[k..];
    assert multiset(edge) == multiset(edge[..k]) + multiset(edge[k..]);
    forall m
      ensures multiset(edge[..k])[m] <= 1
    {
      assert multiset(edge)[m] == multiset(edge[..k])[m] + multiset(edge[k..])[m];
    }
  }

  /** Replacing the edge set with a prefix keeps the invariant. */
  lemma PrefixKeepsInv(s: State, k: nat)
    requires Inv(s) && k <= |s.edgeSet|
    ensures Inv(s.(edgeSet := s.edgeSet[..k]))
  {
    PrefixDistinct(s.edgeSet, k);
  }

  // --------------------------------------------------------------- dispatch

  /** The dispatch pop: when the work queue accepts a board (`ready`), the
      last board of the edge set is sent and removed; otherwise nothing
      changes. */
  function Dispatch(edge: seq<MinimalBoard>, ready: bool): (r: (seq<MinimalBoard>, Option<MinimalBoard>))
    ensures r.1.Some? <==> ready && |edge| > 0
    ensures r.1.Some? ==> r.0 + [r.1.value] == edge
    ensures r.1.None? ==> r.0 == edge
  {
    if ready && |edge| > 0 then (edge[..|edge| - 1], Some(edge[|edge| - 1])) else (edge, None)
  }

  /** The first half of an orchestrator pass, using the corrected prune:
      prune the tail against the bound, then try to dispatch the last board. */
  function PruneAndDispatch(s: State, ready: bool): (r: (State, Option<MinimalBoard>))
    ensures r.0 == s.(edgeSet := r.0.edgeSet) && r.0.edgeSet <= s.edgeSet
    ensures r.1.Some? <==> ready && exists i :: 0 <= i < |s.edgeSet| && s.edgeSet[i].score <= s.bound
    ensures r.1.Some? ==> r.0.edgeSet + [r.1.value] <= s.edgeSet && r.1.value.score <= s.bound
    ensures r.0.edgeSet + (if r.1.Some? then [r.1.value] else []) == PruneTail(s.edgeSet, s.bound)
  {
    var pruned := PruneTail(s.edgeSet, s.bound);
    PruneTailEmpty(s.edgeSet, s.bound);
    var d := Dispatch(pruned, ready);
    (s.(edgeSet := d.0), d.1)
  }

  /** A dispatched board is within the bound, was on the edge set and is no
      longer; the rest of the edge set is a prefix of what it was, and only
      boards over the bound were dropped. */
  lemma PruneAndDispatchSends(s: State, ready: bool)
    requires Inv(s)
    ensures var t := PruneAndDispatch(s, ready).0;
            var sent := PruneAndDispatch(s, ready).1;
            && Inv(t) && t.seen == s.seen && t.bound == s.bound
            && t.edgeSet <= s.edgeSet
            && (sent.Some? ==> sent.value.score <= s.bound && !sent.value.isSolved
                               && sent.value in s.edgeSet && sent.value !in t.edgeSet)
            && (forall i :: |t.edgeSet| + (if sent.Some? then 1 else 0) <= i < |s.edgeSet| ==>
                  s.edgeSet[i].score > s.bound)
            && (forall i, j :: 0 <= i <= j < |s.edgeSet| && s.edgeSet[j].score <= s.bound ==>
                  s.edgeSet[i] in t.edgeSet || sent == Some(s.edgeSet[i]))
  {
    var pruned := PruneTail(s.edgeSet, s.bound);
    var edge := Dispatch(pruned, ready).0;
    var sent := Dispatch(pruned, ready).1;
    PrefixKeepsInv(s, |pruned|);
    assert pruned == s.edgeSet[..|pruned|];
    assert edge == s.edgeSet[..|edge|];
    PrefixKeepsInv(s, |edge|);
    if sent.Some? {
      var k := |pruned| - 1;
      assert sent.value == s.edgeSet[k];
      assert multiset(pruned)[sent.value] <= 1 by { PrefixDistinct(s.edgeSet, |pruned|); }
      assert pruned == edge + [sent.value];
      assert multiset(pruned) == multiset(edge) + multiset{sent.value};
      assert multiset(edge)[sent.value] == 0;
    }
  }

  // ----------------------------------------------------------- sort window

  /** The start of the window re-sorted after a pass: everything but the
      boards that could be needed soon stays in place, unless the window
      would start before the edge set or the bound has just fallen; the
      dirty flag is cleared either way. */
  function WindowOffset(length: nat, newBoards: nat, workQueueSize: nat, scoreIsDirty: bool): (r: (nat, bool))
    ensures r.0 <= length && !r.1
    ensures scoreIsDirty ==> r.0 == 0
    ensures r.0 > 0 ==> r.0 + newBoards + workQueueSize == length
    ensures !scoreIsDirty && newBoards + workQueueSize < length ==> r.0 > 0
  {
    var offset := length - (newBoards + workQueueSize);
    if offset < 0 || scoreIsDirty then (0, false) else (offset, scoreIsDirty)
  }

  /** Non-decreasing by heuristic, the order sort.Slice leaves the window in. */
  predicate SortedByHeuristic(s: seq<MinimalBoard>) {
    forall i, j :: 0 <= i < j < |s| ==> s[i].heuristic <= s[j].heuristic
  }

  /** Insert one board into a sorted sequence. */
  function InsertSorted(m: MinimalBoard, s: seq<MinimalBoard>): (r: seq<MinimalBoard>)
    requires SortedByHeuristic(s)
    ensures SortedByHeuristic(r) && multiset(r) == multiset(s) + multiset{m}
    decreases |s|
  {
    if |s| == 0 || m.heuristic <= s[0].heuristic then [m] + s
    else
      var rest := InsertSorted(m, s[1..]);
      assert s == [s[0]] + s[1..];
      assert forall k :: 0 <= k < |rest| ==> s[0].heuristic <= rest[k].heuristic by {
        forall k | 0 <= k < |rest|
          ensures s[0].heuristic <= rest[k].heuristic
        {
          assert rest[k] in multiset(rest);
        }
      }
      [s[0]] + rest
  }

  /** Sort by heuristic, ascending.  Go's sort.Slice is not stable; any
      order of equal keys satisfies the properties stated here. */
  function SortByHeuristic(s: seq<MinimalBoard>): (r: seq<MinimalBoard>)
    ensures SortedByHeuristic(r) && multiset(r) == multiset(s)
    decreases |s|
  {
    if |s| == 0 then []
    else
      assert s == [s[0]] + s[1..];
      InsertSorted(s[0], SortByHeuristic(s[1..]))
  }

  /** The re-sort: boards before the offset stay in place and the window from
      the offset on is sorted ascending by heuristic; no board is gained or
      lost. */
  function SortWindow(edge: seq<MinimalBoard>, offset: nat): (r: seq<MinimalBoard>)
    requires offset <= |edge|
    ensures |r| == |edge| && r[..offset] == edge[..offset]
    ensures SortedByHeuristic(r[offset..])
    ensures multiset(r) == multiset(edge)
  {
    var sorted := SortByHeuristic(edge[offset..]);
    var r := edge[..offset] + sorted;
    assert r[..offset] == edge[..offset];
    assert r[offset..] == sorted;
    assert multiset(r) == multiset(edge[..offset]) + multiset(sorted);
    assert multiset(edge) == multiset(edge[..offset]) + multiset(edge[offset..]) by {
      assert edge == edge[..offset] + edge[offset..];
    }
    r
  }

  /** After a full sort the last board has the highest heuristic, so the next
      dispatch takes the board with the highest heuristic. */
  lemma FullSortDispatchesMax(edge: seq<MinimalBoard>, r: seq<MinimalBoard>)
    requires |edge| > 0 && r == SortWindow(edge, 0)
    ensures forall i :: 0 <= i < |edge| ==> edge[i].heuristic <= r[|r| - 1].heuristic
  {
    WholeWindowSorted(edge);
    forall i | 0 <= i < |edge|
      ensures edge[i].heuristic <= r[|r| - 1].heuristic
    {
      assert edge[i] in multiset(edge);
      SortedLastIsMax(r, edge[i]);
    }
  }

  /** A window starting at zero covers the whole edge set. */
  lemma WholeWindowSorted(edge: seq<MinimalBoard>)
    ensures SortedByHeuristic(SortWindow(edge, 0))
  {
    var r := SortWindow(edge, 0);
    assert r == r[0..];
  }

  /** In a sorted sequence no element has a higher heuristic than the last. */
  lemma SortedLastIsMax(r: seq<MinimalBoard>, m: MinimalBoard)
    requires SortedByHeuristic(r) && m in multiset(r)
    ensures m.heuristic <= r[|r| - 1].heuristic
  {
    var j :| 0 <= j < |r| && r[j] == m;
  }

  /** Re-sorting keeps the invariant: it permutes the edge set. */
  lemma SortKeepsInv(s: State, offset: nat)
    requires Inv(s) && offset <= |s.edgeSet|
    ensures Inv(s.(edgeSet := SortWindow(s.edgeSet, offset)))
  {
    var r := SortWindow(s.edgeSet, offset);
    forall i | 0 <= i < |r|
      ensures r[i] in s.seen && !r[i].isSolved
    {
      assert r[i] in multiset(s.edgeSet);
      var j :| 0 <= j < |s.edgeSet| && s.edgeSet[j] == r[i];
    }
  }

  // ------------------------------------------------------------------ worker

  /** The worker's filter: only proposals whose score is within the bound it
      read are sent back.  The bound may be stale. */
  function Forwarded(proposals: set<MinimalBoard>, boundRead: int): (r: set<MinimalBoard>)
    ensures r <= proposals
    ensures forall m :: m in proposals ==> (m in r <==> m.score <= boundRead)
  {
    set m | m in proposals && m.score <= boundRead
  }

  /** A fresher (lower) bound forwards fewer boards, so a stale bound only
      lets extra boards through, never holds one back. */
  lemma ForwardedStale(proposals: set<MinimalBoard>, current: int, stale: int)
    requires current <= stale
    ensures Forwarded(proposals, current) <= Forwarded(proposals, stale)
  {
  }

  /** A worker's job: rebuild the compact board, propose its successors and
      forward exactly those within the bound read.  Rebuilding fails only on an
      unknown piece. */
  function WorkerOutput(m: MinimalBoard, heuristic: Heuristic, boundRead: int): (r: Result<set<MinimalBoard>>)
    ensures r.Success? <==> AllKnown(m.board)
    ensures r.Success? ==> forall p :: p in r.value ==>
              p.score <= boundRead && IsProposal(RebuildBoard(m).value, heuristic, p)
    ensures r.Success? ==> forall p :: p in ProposeBoards(RebuildBoard(m).value, heuristic) ==>
              (p in r.value <==> p.score <= boundRead)
  {
    match RebuildBoard(m)
    case Failure(e) => Failure(e)
    case Success(b) => Success(Forwarded(ProposeBoards(b, heuristic), boundRead))
  }

  // ------------------------------------------------------------------ a pass

  /** One pass of the orchestrator loop: prune and dispatch, take in the
      boards that arrived, then re-sort the window. */
  function Pass(s: State, ready: bool, arrived: seq<MinimalBoard>, workQueueSize: nat): (r: (State, Option<MinimalBoard>))
    ensures r.1.Some? <==> ready && exists i :: 0 <= i < |s.edgeSet| && s.edgeSet[i].score <= s.bound
    ensures r.1.Some? ==> r.1.value in s.edgeSet && r.1.value.score <= s.bound
    ensures s.seen <= r.0.seen <= s.seen + set m | m in arrived
    ensures !r.0.scoreIsDirty && |r.0.edgeSet| <= |s.edgeSet| + |arrived|
    ensures forall m :: m in r.0.edgeSet ==> m in s.edgeSet || m in arrived
  {
    var t := PruneAndDispatch(s, ready);
    var u := IngestAll(t.0, arrived);
    var w := WindowOffset(|u.edgeSet|, |arrived|, workQueueSize, u.scoreIsDirty);
    var sorted := SortWindow(u.edgeSet, w.0);
    assert |u.edgeSet| <= |s.edgeSet| + |arrived| by { UnsolvedAtMost(arrived); }
    IngestAllFrom(t.0, arrived);
    SortWindowMembers(u.edgeSet, w.0);
    assert forall m :: m in t.0.edgeSet ==> m in s.edgeSet;
    (u.(edgeSet := sorted, scoreIsDirty := w.1), t.1)
  }

  /** Every pass re-sorts: the last |arrived| + workQueueSize boards of the
      new edge set (all of them, if there are fewer) are in ascending
      heuristic order, and the whole edge set is when the score was dirty or
      the bound fell during the pass. */
  lemma PassSorts(s: State, ready: bool, arrived: seq<MinimalBoard>, workQueueSize: nat, k: nat)
    requires var n := |Pass(s, ready, arrived, workQueueSize).0.edgeSet|;
             k == if n > |arrived| + workQueueSize then n - (|arrived| + workQueueSize) else 0
    ensures k <= |Pass(s, ready, arrived, workQueueSize).0.edgeSet|
    ensures SortedByHeuristic(Pass(s, ready, arrived, workQueueSize).0.edgeSet[k..])
    ensures s.scoreIsDirty || Pass(s, ready, arrived, workQueueSize).0.bound != s.bound ==>
              SortedByHeuristic(Pass(s, ready, arrived, workQueueSize).0.edgeSet)
  {
    var t := PruneAndDispatch(s, ready).0;
    var u := IngestAll(t, arrived);
    var w := WindowOffset(|u.edgeSet|, |arrived|, workQueueSize, u.scoreIsDirty).0;
    var sorted := SortWindow(u.edgeSet, w);
    assert Pass(s, ready, arrived, workQueueSize).0 == u.(edgeSet := sorted, scoreIsDirty := false);
    ResortedTail(u.edgeSet, |arrived|, workQueueSize, u.scoreIsDirty, w, sorted, k);
  }

  /** The re-sort leaves the last newBoards + workQueueSize boards (all of
      them, if there are fewer) sorted, and the whole edge set sorted when
      the score is dirty. */
  lemma ResortedTail(edge: seq<MinimalBoard>, newBoards: nat, workQueueSize: nat, scoreIsDirty: bool,
                     w: nat, sorted: seq<MinimalBoard>, k: nat)
    requires w == WindowOffset(|edge|, newBoards, workQueueSize, scoreIsDirty).0
    requires sorted == SortWindow(edge, w)
    requires k == if |edge| > newBoards + workQueueSize then |edge| - (newBoards + workQueueSize) else 0
    ensures k <= |sorted| && SortedByHeuristic(sorted[k..])
    ensures scoreIsDirty ==> SortedByHeuristic(sorted)
  {
    if w == 0 {
      WholeWindowSorted(edge);
      SortedSuffix(sorted);
    }
  }

  /** Every suffix of a sorted sequence is sorted. */
  lemma SortedSuffix(r: seq<MinimalBoard>)
    requires SortedByHeuristic(r)
    ensures forall k :: 0 <= k <= |r| ==> SortedByHeuristic(r[k..])
  {
  }

  /** In a sequence without repeats, different positions hold different
      boards. */
  lemma DistinctAt(e: seq<MinimalBoard>, k: int, i: int)
    requires Distinct(e) && 0 <= k < i < |e|
    ensures e[k] != e[i]
  {
    assert e == e[..i] + e[i..];
    assert multiset(e) == multiset(e[..i]) + multiset(e[i..]);
    assert e[k] == e[..i][k] && e[i] == e[i..][0];
    assert e[k] in multiset(e[..i]) && e[i] in multiset(e[i..]);
    assert multiset(e)[e[i]] <= 1;
  }

  /** Pruning and dispatching removes the over-bound tail: a board after
      which every board exceeds the bound is no longer on the edge set. */
  lemma PruneDropsTail(s: State, ready: bool, i: int)
    requires Inv(s) && 0 <= i < |s.edgeSet|
    requires forall j :: i <= j < |s.edgeSet| ==> s.edgeSet[j].score > s.bound
    ensures s.edgeSet[i] !in PruneAndDispatch(s, ready).0.edgeSet
  {
    var t := PruneAndDispatch(s, ready).0;
    var pruned := PruneTail(s.edgeSet, s.bound);
    assert pruned == s.edgeSet[..|pruned|];
    assert |pruned| > 0 ==> s.edgeSet[|pruned| - 1] == pruned[|pruned| - 1];
    assert i >= |pruned|;
    forall k | 0 <= k < |t.edgeSet|
      ensures t.edgeSet[k] != s.edgeSet[i]
    {
      assert t.edgeSet[k] == s.edgeSet[k];
      DistinctAt(s.edgeSet, k, i);
    }
  }

  /** A pass removes the over-bound tail: a board after which every board
      exceeds the bound is no longer on the edge set. */
  lemma PassDropsTail(s: State, ready: bool, arrived: seq<MinimalBoard>, workQueueSize: nat, i: int)
    requires Inv(s) && 0 <= i < |s.edgeSet|
    requires forall j :: i <= j < |s.edgeSet| ==> s.edgeSet[j].score > s.bound
    ensures s.edgeSet[i] !in Pass(s, ready, arrived, workQueueSize).0.edgeSet
  {
    var t := PruneAndDispatch(s, ready).0;
    PruneDropsTail(s, ready, i);
    var u := IngestAll(t, arrived);
    IngestAllFresh(t, arrived);
    var offset := WindowOffset(|u.edgeSet|, |arrived|, workQueueSize, u.scoreIsDirty).0;
    SortWindowMembers(u.edgeSet, offset);
    assert Pass(s, ready, arrived, workQueueSize).0.edgeSet == SortWindow(u.edgeSet, offset);
    var x := s.edgeSet[i];
    assert x in t.seen;
    forall k | 0 <= k < |u.edgeSet|
      ensures u.edgeSet[k] != x
    {
      if k < |t.edgeSet| {
        assert u.edgeSet[k] == t.edgeSet[k];
      }
    }
  }

  /** After a batch every board on the edge set was on it before or arrived. */
  lemma IngestAllFrom(s: State, ms: seq<MinimalBoard>)
    ensures forall m :: m in IngestAll(s, ms).edgeSet ==> m in s.edgeSet || m in ms
  {
    var r := IngestAll(s, ms);
    forall m | m in r.edgeSet
      ensures m in s.edgeSet || m in ms
    {
      var i :| 0 <= i < |r.edgeSet| && r.edgeSet[i] == m;
      if i < |s.edgeSet| {
        assert s.edgeSet[i] == m;
      }
    }
  }

  /** Re-sorting a window neither adds nor loses a board. */
  lemma SortWindowMembers(edge: seq<MinimalBoard>, offset: nat)
    requires offset <= |edge|
    ensures forall m :: m in SortWindow(edge, offset) <==> m in edge
  {
    var r := SortWindow(edge, offset);
    forall m
      ensures m in r <==> m in edge
    {
      assert m in r <==> m in multiset(r);
      assert m in edge <==> m in multiset(edge);
    }
  }

  /** A batch has no more unsolved boards than boards. */
  lemma {:induction false} UnsolvedAtMost(ms: seq<MinimalBoard>)
    ensures Unsolved(ms) <= |ms|
    decreases |ms|
  {
    if |ms| > 0 {
      UnsolvedAtMost(ms[1..]);
    }
  }

  /** A pass keeps the frontier invariant, never shrinks the seen set, never
      raises the bound, and dispatches only a board within the bound it
      started with. */
  lemma PassKeepsInv(s: State, ready: bool, arrived: seq<MinimalBoard>, workQueueSize: nat)
    requires Inv(s)
    requires forall i :: 0 <= i < |arrived| ==> 0 <= arrived[i].score
    ensures var r := Pass(s, ready, arrived, workQueueSize).0;
            var sent := Pass(s, ready, arrived, workQueueSize).1;
            && Inv(r) && s.seen <= r.seen && r.bound <= s.bound && !r.scoreIsDirty
            && (sent.Some? ==> sent.value.score <= s.bound && sent.value in s.seen && !sent.value.isSolved)
  {
    var t := PruneAndDispatch(s, ready).0;
    var sent := PruneAndDispatch(s, ready).1;
    PruneAndDispatchSends(s, ready);
    var u := IngestAll(t, arrived);
    IngestAllKeepsInv(t, arrived);
    IngestAllBound(t, arrived);
    var offset := WindowOffset(|u.edgeSet|, |arrived|, workQueueSize, u.scoreIsDirty).0;
    SortKeepsInv(u, offset);
    if sent.Some? {
      var i :| 0 <= i < |s.edgeSet| && s.edgeSet[i] == sent.value;
    }
  }

  /** A pass loses nothing but the dispatched board and boards over the
      bound: every board within the bound stays on the edge set unless it was
      sent, every unsolved arrival is seen, every unsolved arrival not seen
      before joins the edge set, and the sent board is off it. */
  lemma PassConserves(s: State, ready: bool, arrived: seq<MinimalBoard>, workQueueSize: nat)
    requires Inv(s)
    ensures var r := Pass(s, ready, arrived, workQueueSize).0;
            var sent := Pass(s, ready, arrived, workQueueSize).1;
            && (forall i :: 0 <= i < |s.edgeSet| && s.edgeSet[i].score <= s.bound && sent != Some(s.edgeSet[i]) ==>
                  s.edgeSet[i] in r.edgeSet)
            && (forall m :: m in arrived && !m.isSolved ==> m in r.seen)
            && (forall m :: m in arrived && !m.isSolved && m !in s.seen ==> m in r.edgeSet)
            && (sent.Some? ==> sent.value !in r.edgeSet)
            && (forall i :: 0 <= i < |s.edgeSet| && (forall j :: i <= j < |s.edgeSet| ==> s.edgeSet[j].score > s.bound) ==>
                  s.edgeSet[i] !in r.edgeSet)
  {
    forall i | 0 <= i < |s.edgeSet| && (forall j :: i <= j < |s.edgeSet| ==> s.edgeSet[j].score > s.bound)
      ensures s.edgeSet[i] !in Pass(s, ready, arrived, workQueueSize).0.edgeSet
    {
      PassDropsTail(s, ready, arrived, workQueueSize, i);
    }
    PassKeepsAndAdmits(s, ready, arrived, workQueueSize);
    PassDoesNotResend(s, ready, arrived, workQueueSize);
  }

  /** Within-bound boards that are not sent stay on the edge set, and unsolved
      arrivals are seen and, when new, queued. */
  lemma PassKeepsAndAdmits(s: State, ready: bool, arrived: seq<MinimalBoard>, workQueueSize: nat)
    requires Inv(s)
    ensures forall i :: 0 <= i < |s.edgeSet| && s.edgeSet[i].score <= s.bound && Pass(s, ready, arrived, workQueueSize).1 != Some(s.edgeSet[i]) ==>
              s.edgeSet[i] in Pass(s, ready, arrived, workQueueSize).0.edgeSet
    ensures forall m :: m in arrived && !m.isSolved ==> m in Pass(s, ready, arrived, workQueueSize).0.seen
    ensures forall m :: m in arrived && !m.isSolved && m !in s.seen ==> m in Pass(s, ready, arrived, workQueueSize).0.edgeSet
  {
    var t := PruneAndDispatch(s, ready).0;
    var sent := PruneAndDispatch(s, ready).1;
    PruneAndDispatchSends(s, ready);
    var u := IngestAll(t, arrived);
    IngestAllAdmits(t, arrived);
    var offset := WindowOffset(|u.edgeSet|, |arrived|, workQueueSize, u.scoreIsDirty).0;
    SortWindowMembers(u.edgeSet, offset);
    assert Pass(s, ready, arrived, workQueueSize).0.edgeSet == SortWindow(u.edgeSet, offset);
    forall i | 0 <= i < |s.edgeSet| && s.edgeSet[i].score <= s.bound && sent != Some(s.edgeSet[i])
      ensures s.edgeSet[i] in u.edgeSet
    {
      assert i < |t.edgeSet|;
      assert s.edgeSet[i] == t.edgeSet[i] == u.edgeSet[i];
    }
    forall m | m in arrived && !m.isSolved && m !in s.seen
      ensures m in u.edgeSet
    {
      assert m in u.edgeSet[|t.edgeSet|..];
    }
  }

  /** The dispatched board does not stay on the edge set. */
  lemma PassDoesNotResend(s: State, ready: bool, arrived: seq<MinimalBoard>, workQueueSize: nat)
    requires Inv(s)
    ensures Pass(s, ready, arrived, workQueueSize).1.Some? ==>
              Pass(s, ready, arrived, workQueueSize).1.value !in Pass(s, ready, arrived, workQueueSize).0.edgeSet
  {
    var t := PruneAndDispatch(s, ready).0;
    var sent := PruneAndDispatch(s, ready).1;
    PruneAndDispatchSends(s, ready);
    var u := IngestAll(t, arrived);
    IngestAllFresh(t, arrived);
    var offset := WindowOffset(|u.edgeSet|, |arrived|, workQueueSize, u.scoreIsDirty).0;
    SortWindowMembers(u.edgeSet, offset);
    assert Pass(s, ready, arrived, workQueueSize).0.edgeSet == SortWindow(u.edgeSet, offset);
    if sent.Some? {
      assert sent.value in t.seen;
      forall i | 0 <= i < |u.edgeSet|
        ensures u.edgeSet[i] != sent.value
      {
        if i < |t.edgeSet| {
          assert u.edgeSet[i] == t.edgeSet[i];
        }
      }
    }
  }
}

=== FILE: pieces.dfy ===
/** The piece set, piece values and the squares each piece covers
    (chess/pieces.go). */
module Pieces {
  import opened Errors
  import opened Points

  /** A piece is one byte: NONE..QUEEN are named, every other value is unknown. */
  type Piece = v: int | 0 <= v < 256

  const NONE: Piece := 0
  const PAWN: Piece := 1
  const KNIGHT: Piece := 2
  const BISHOP: Piece := 3
  const ROOK: Piece := 4
  const QUEEN: Piece := 5

  /** The five pieces that can stand on a square. */
  predicate IsPiece(v: Piece) {
    PAWN <= v <= QUEEN
  }

  /** The piece on every square, row-major: square (x, y) at index x*8 + y. */
  type Occupancy = s: seq<Piece> | |s| == 64 witness seq(64, _ => 0)

  predicate IsEmpty(occ: Occupancy, p: Point) {
    occ[p] == NONE
  }

  /** GetScore: pawn 1, knight 3, bishop 3, rook 5, queen 9.  Any other value,
      NONE included, panics; the error result is never used. */
  function GetScore(piece: Piece): (r: Result<int>)
    ensures r.Success? <==> IsPiece(piece)
    ensures r.Failure? ==> r.error == ScorePanic(piece)
    ensures piece == PAWN ==> r == Success(1)
    ensures piece == KNIGHT || piece == BISHOP ==> r == Success(3)
    ensures piece == ROOK ==> r == Success(5)
    ensures piece == QUEEN ==> r == Success(9)
  {
    match piece
    case 1 => Success(1)
    case 2 => Success(3)
    case 3 => Success(3)
    case 4 => Success(5)
    case 5 => Success(9)
    case _ => Failure(ScorePanic(piece))
  }

  // ---------------------------------------------------------------- offsets

  /** The point one (dx, dy) offset away, when it is on the board. */
  function Step(p: Point, dx: Int8, dy: Int8): (r: set<Point>)
    ensures forall s: Point :: s in r <==> X(s) == X(p) + dx && Y(s) == Y(p) + dy
    ensures |r| <= 1
  {
    var (next, valid) := Add(p, dx, dy);
    if valid then {next} else {}
  }

  /** pawnCoverage: the two forward diagonals, whatever stands on the board. */
  function PawnCoverage(p: Point): (r: set<Point>)
    ensures forall s: Point :: s in r <==> X(s) == X(p) + 1 && (Y(s) == Y(p) + 1 || Y(s) == Y(p) - 1)
    ensures |r| <= 2
    ensures X(p) == Size - 1 ==> r == {}
  {
    Step(p, 1, 1) + Step(p, 1, -1)
  }

  predicate IsKnightJump(p: Point, s: Point) {
    var dx := X(s) - X(p);
    var dy := Y(s) - Y(p);
    ((dx == 1 || dx == -1) && (dy == 2 || dy == -2)) || ((dx == 2 || dx == -2) && (dy == 1 || dy == -1))
  }

  /** knightCoverage: the on-board squares among the eight knight jumps,
      whatever stands on the board. */
  function KnightCoverage(p: Point): (r: set<Point>)
    ensures forall s: Point :: s in r <==> IsKnightJump(p, s)
    ensures |r| <= 8
  {
    Step(p, 1, 2) + Step(p, 2, 1) + Step(p, -1, 2) + Step(p, -2, 1)
    + Step(p, 1, -2) + Step(p, 2, -1) + Step(p, -1, -2) + Step(p, -2, -1)
  }

  // ------------------------------------------------------------------- rays

  /** A direction a sliding piece walks in. */
  predicate IsUnitStep(dx: int, dy: int) {
    -1 <= dx <= 1 && -1 <= dy <= 1 && (dx != 0 || dy != 0)
  }

  /** How many more steps a ray from p in (dx, dy) can take before any
      coordinate leaves the board (summed over both coordinates). */
  function Reach(p: Point, dx: int, dy: int): nat {
    (if dx == 1 then Size - 1 - X(p) else if dx == -1 then X(p) else 0)
    + (if dy == 1 then Size - 1 - Y(p) else if dy == -1 then Y(p) else 0)
  }

  /** One ray of a sliding piece: every empty square from p in (dx, dy), plus
      the first occupied square, where the ray stops.  Every square of the ray
      lies strictly further along the direction than p, so p is not on it. */
  function Ray(occ: Occupancy, p: Point, dx: Int8, dy: Int8): (r: set<Point>)
    requires IsUnitStep(dx, dy)
    ensures forall s :: s in r ==> Reach(s, dx, dy) < Reach(p, dx, dy)
    ensures p !in r
    decreases Reach(p, dx, dy)
  {
    var (next, valid) := Add(p, dx, dy);
    if !valid then {}
    else if IsEmpty(occ, next) then {next} + Ray(occ, next, dx, dy)
    else {next}
  }

  /** bishopCoverage: the four diagonal rays. A sliding piece never covers its own square. */
  function BishopCoverage(occ: Occupancy, p: Point): (r: set<Point>)
    ensures p !in r
  {
    Ray(occ, p, 1, 1) + Ray(occ, p, -1, 1) + Ray(occ, p, 1, -1) + Ray(occ, p, -1, -1)
  }

  /** rookCoverage: the four straight rays. A sliding piece never covers its own square. */
  function RookCoverage(occ: Occupancy, p: Point): (r: set<Point>)
    ensures p !in r
  {
    Ray(occ, p, 1, 0) + Ray(occ, p, 0, 1) + Ray(occ, p, -1, 0) + Ray(occ, p, 0, -1)
  }

  /** queenCoverage: the eight rays of bishop and rook together. A sliding piece never covers its own square. */
  function QueenCoverage(occ: Occupancy, p: Point): (r: set<Point>)
    ensures p !in r
  {
    BishopCoverage(occ, p) + RookCoverage(occ, p)
  }

  /** The squares a known piece covers from p; never its own square. */
  function Cover(occ: Occupancy, p: Point, piece: Piece): (r: set<Point>)
    requires IsPiece(piece)
    ensures p !in r
  {
    match piece
    case 1 => PawnCoverage(p)
    case 2 => KnightCoverage(p)
    case 3 => BishopCoverage(occ, p)
    case 4 => RookCoverage(occ, p)
    case 5 => QueenCoverage(occ, p)
  }

  /** getCoverage: the covered squares, or an error for a piece outside
      PAWN..QUEEN (NONE included).  A piece never covers its own square. */
  function GetCoverage(occ: Occupancy, p: Point, piece: Piece): (r: Result<set<Point>>)
    ensures r.Failure? <==> !IsPiece(piece)
    ensures r.Failure? ==> r.error == UnknownPiece(piece)
    ensures r.Success? ==> p !in r.value
  {
    if IsPiece(piece) then Success(Cover(occ, p, piece))
    else Failure(UnknownPiece(piece))
  }

  // ------------------------------------------------- reference definition of a ray

  /** k * d for a unit step d, written without multiplication. */
  function Offset(k: int, d: int): int {
    if d == 1 then k else if d == -1 then -k else 0
  }

  /** The k-th square from p in direction (dx, dy) is on the board. */
  predicate InReach(p: Point, dx: int, dy: int, k: int) {
    OnBoard(X(p) + Offset(k, dx), Y(p) + Offset(k, dy))
  }

  /** The k-th square from p in direction (dx, dy). */
  function StepTo(p: Point, dx: int, dy: int, k: int): Point
    requires InReach(p, dx, dy, k)
  {
    Square(X(p) + Offset(k, dx), Y(p) + Offset(k, dy))
  }

  /** Every on-board square strictly between p and its k-th square is empty. */
  ghost predicate ClearBefore(occ: Occupancy, p: Point, dx: int, dy: int, k: int) {
    forall j :: 1 <= j < k && InReach(p, dx, dy, j) ==> IsEmpty(occ, StepTo(p, dx, dy, j))
  }

  /** s lies on the ray from p in (dx, dy), on the board, with nothing in between. */
  ghost predicate OnRay(occ: Occupancy, p: Point, dx: int, dy: int, s: Point) {
    exists k :: 1 <= k && InReach(p, dx, dy, k) && StepTo(p, dx, dy, k) == s && ClearBefore(occ, p, dx, dy, k)
  }

  ghost predicate OnDiagonalRay(occ: Occupancy, p: Point, s: Point) {
    OnRay(occ, p, 1, 1, s) || OnRay(occ, p, -1, 1, s) || OnRay(occ, p, 1, -1, s) || OnRay(occ, p, -1, -1, s)
  }

  ghost predicate OnStraightRay(occ: Occupancy, p: Point, s: Point) {
    OnRay(occ, p, 1, 0, s) || OnRay(occ, p, 0, 1, s) || OnRay(occ, p, -1, 0, s) || OnRay(occ, p, 0, -1, s)
  }

  ghost predicate OnSomeRay(occ: Occupancy, p: Point, s: Point) {
    OnDiagonalRay(occ, p, s) || OnStraightRay(occ, p, s)
  }

  // ------------------------------------------------------------- ray lemmas

  /** Stepping once and then k times is stepping k + 1 times. */
  lemma StepShift(p: Point, dx: int, dy: int, k: int)
    requires IsUnitStep(dx, dy) && InReach(p, dx, dy, 1)
    ensures InReach(StepTo(p, dx, dy, 1), dx, dy, k) <==> InReach(p, dx, dy, k + 1)
    ensures InReach(p, dx, dy, k + 1) ==> StepTo(StepTo(p, dx, dy, 1), dx, dy, k) == StepTo(p, dx, dy, k + 1)
  {
  }

  /** A square that is k steps away is reached through every nearer step. */
  lemma ReachConvex(p: Point, dx: int, dy: int, j: int, k: int)
    requires IsUnitStep(dx, dy) && 0 <= j <= k && InReach(p, dx, dy, k)
    ensures InReach(p, dx, dy, j)
  {
  }

  /** The k-th step (k >= 1) is never the origin. */
  lemma StepNotOrigin(p: Point, dx: int, dy: int, k: int)
    requires IsUnitStep(dx, dy) && 1 <= k && InReach(p, dx, dy, k)
    ensures StepTo(p, dx, dy, k) != p
  {
    var s := StepTo(p, dx, dy, k);
    assert X(s) == X(p) + Offset(k, dx) && Y(s) == Y(p) + Offset(k, dy);
  }

  /** With no first step on the board, nothing is on the ray. */
  lemma RayOffBoard(occ: Occupancy, p: Point, dx: int, dy: int, s: Point)
    requires IsUnitStep(dx, dy) && !InReach(p, dx, dy, 1)
    ensures !OnRay(occ, p, dx, dy, s)
  {
    forall k | 1 <= k && InReach(p, dx, dy, k)
      ensures false
    {
      ReachConvex(p, dx, dy, 1, k);
    }
  }

  /** A square beyond an empty first square is on the ray from that square. */
  lemma RayForward(occ: Occupancy, p: Point, dx: int, dy: int, s: Point, k: int)
    requires IsUnitStep(dx, dy) && 2 <= k && InReach(p, dx, dy, k)
    requires StepTo(p, dx, dy, k) == s && ClearBefore(occ, p, dx, dy, k)
    ensures InReach(p, dx, dy, 1) && OnRay(occ, StepTo(p, dx, dy, 1), dx, dy, s)
  {
    ReachConvex(p, dx, dy, 1, k);
    var next := StepTo(p, dx, dy, 1);
    StepShift(p, dx, dy, k - 1);
    forall j | 1 <= j < k - 1 && InReach(next, dx, dy, j)
      ensures IsEmpty(occ, StepTo(next, dx, dy, j))
    {
      StepShift(p, dx, dy, j);
    }
    assert ClearBefore(occ, next, dx, dy, k - 1);
  }

  /** A square on the ray from an empty first square is on the ray from p. */
  lemma RayBackward(occ: Occupancy, p: Point, dx: int, dy: int, s: Point, k: int)
    requires IsUnitStep(dx, dy) && InReach(p, dx, dy, 1) && IsEmpty(occ, StepTo(p, dx, dy, 1))
    requires 1 <= k && InReach(StepTo(p, dx, dy, 1), dx, dy, k)
    requires StepTo(StepTo(p, dx, dy, 1), dx, dy, k) == s && ClearBefore(occ, StepTo(p, dx, dy, 1), dx, dy, k)
    ensures OnRay(occ, p, dx, dy, s)
  {
    var next := StepTo(p, dx, dy, 1);
    StepShift(p, dx, dy, k);
    forall j | 1 <= j < k + 1 && InReach(p, dx, dy, j)
      ensures IsEmpty(occ, StepTo(p, dx, dy, j))
    {
      if j > 1 {
        StepShift(p, dx, dy, j - 1);
      }
    }
    assert ClearBefore(occ, p, dx, dy, k + 1);
  }

  /** Past an empty first square, the ray from p continues as the ray from it. */
  lemma RayThroughEmpty(occ: Occupancy, p: Point, dx: int, dy: int, s: Point)
    requires IsUnitStep(dx, dy) && InReach(p, dx, dy, 1) && IsEmpty(occ, StepTo(p, dx, dy, 1))
    ensures OnRay(occ, p, dx, dy, s) <==> s == StepTo(p, dx, dy, 1) || OnRay(occ, StepTo(p, dx, dy, 1), dx, dy, s)
  {
    var next := StepTo(p, dx, dy, 1);
    if OnRay(occ, p, dx, dy, s) && s != next {
      var k :| 1 <= k && InReach(p, dx, dy, k) && StepTo(p, dx, dy, k) == s && ClearBefore(occ, p, dx, dy, k);
      RayForward(occ, p, dx, dy, s, k);
    }
    if s == next {
      assert ClearBefore(occ, p, dx, dy, 1);
    }
    if OnRay(occ, next, dx, dy, s) {
      var k :| 1 <= k && InReach(next, dx, dy, k) && StepTo(next, dx, dy, k) == s && ClearBefore(occ, next, dx, dy, k);
      RayBackward(occ, p, dx, dy, s, k);
    }
  }

  /** An occupied first square is the whole ray. */
  lemma RayBlocked(occ: Occupancy, p: Point, dx: int, dy: int, s: Point)
    requires IsUnitStep(dx, dy) && InReach(p, dx, dy, 1) && !IsEmpty(occ, StepTo(p, dx, dy, 1))
    ensures OnRay(occ, p, dx, dy, s) <==> s == StepTo(p, dx, dy, 1)
  {
    if s == StepTo(p, dx, dy, 1) {
      assert ClearBefore(occ, p, dx, dy, 1);
    }
  }

  /** Ray computes exactly the reference ray: s is on it iff s is some k-th
      square from p that is on the board with every square before it empty. */
  lemma {:induction false} RayExact(occ: Occupancy, p: Point, dx: Int8, dy: Int8, s: Point)
    requires IsUnitStep(dx, dy)
    ensures s in Ray(occ, p, dx, dy) <==> OnRay(occ, p, dx, dy, s)
    decreases Reach(p, dx, dy)
  {
    var (next, valid) := Add(p, dx, dy);
    if !valid {
      RayOffBoard(occ, p, dx, dy, s);
    } else {
      assert next == StepTo(p, dx, dy, 1);
      if IsEmpty(occ, next) {
        RayExact(occ, next, dx, dy, s);
        RayThroughEmpty(occ, p, dx, dy, s);
      } else {
        RayBlocked(occ, p, dx, dy, s);
      }
    }
  }

  /** bishopCoverage is exactly the union of the four diagonal reference rays. */
  lemma BishopCoverageExact(occ: Occupancy, p: Point, s: Point)
    ensures s in BishopCoverage(occ, p) <==> OnDiagonalRay(occ, p, s)
  {
    RayExact(occ, p, 1, 1, s);
    RayExact(occ, p, -1, 1, s);
    RayExact(occ, p, 1, -1, s);
    RayExact(occ, p, -1, -1, s);
  }

  /** rookCoverage is exactly the union of the four straight reference rays. */
  lemma RookCoverageExact(occ: Occupancy, p: Point, s: Point)
    ensures s in RookCoverage(occ, p) <==> OnStraightRay(occ, p, s)
  {
    RayExact(occ, p, 1, 0, s);
    RayExact(occ, p, 0, 1, s);
    RayExact(occ, p, -1, 0, s);
    RayExact(occ, p, 0, -1, s);
  }

  /** queenCoverage is exactly the union of all eight reference rays, which is
      bishop coverage together with rook coverage. */
  lemma QueenCoverageExact(occ: Occupancy, p: Point, s: Point)
    ensures s in QueenCoverage(occ, p) <==> OnSomeRay(occ, p, s)
    ensures s in QueenCoverage(occ, p) <==> s in BishopCoverage(occ, p) || s in RookCoverage(occ, p)
  {
    BishopCoverageExact(occ, p, s);
    RookCoverageExact(occ, p, s);
  }

  /** Emptying squares only lengthens a ray. */
  lemma {:induction false} RayMonotone(occ: Occupancy, occ': Occupancy, p: Point, dx: Int8, dy: Int8)
    requires IsUnitStep(dx, dy)
    requires forall q: Point :: IsEmpty(occ, q) ==> IsEmpty(occ', q)
    ensures Ray(occ, p, dx, dy) <= Ray(occ', p, dx, dy)
    decreases Reach(p, dx, dy)
  {
    var (next, valid) := Add(p, dx, dy);
    if valid && IsEmpty(occ, next) {
      RayMonotone(occ, occ', next, dx, dy);
    }
  }

  /** A ray reads the board only at the squares ahead of its origin. */
  lemma {:induction false} RayFrame(occ: Occupancy, occ': Occupancy, p: Point, dx: Int8, dy: Int8)
    requires IsUnitStep(dx, dy)
    requires forall k :: 1 <= k && InReach(p, dx, dy, k) ==> occ[StepTo(p, dx, dy, k)] == occ'[StepTo(p, dx, dy, k)]
    ensures Ray(occ, p, dx, dy) == Ray(occ', p, dx, dy)
    decreases Reach(p, dx, dy)
  {
    var (next, valid) := Add(p, dx, dy);
    if valid {
      assert next == StepTo(p, dx, dy, 1);
      forall k | 1 <= k && InReach(next, dx, dy, k)
        ensures occ[StepTo(next, dx, dy, k)] == occ'[StepTo(next, dx, dy, k)]
      {
        StepShift(p, dx, dy, k);
      }
      RayFrame(occ, occ', next, dx, dy);
    }
  }

  /** What stands on a ray's own origin does not change the ray. */
  lemma RayIgnoresOrigin(occ: Occupancy, p: Point, dx: Int8, dy: Int8, v: Piece)
    requires IsUnitStep(dx, dy)
    ensures Ray(occ[p := v], p, dx, dy) == Ray(occ, p, dx, dy)
  {
    forall k | 1 <= k && InReach(p, dx, dy, k)
      ensures occ[p := v][StepTo(p, dx, dy, k)] == occ[StepTo(p, dx, dy, k)]
    {
      StepNotOrigin(p, dx, dy, k);
    }
    RayFrame(occ[p := v], occ, p, dx, dy);
  }

  /** A piece's coverage does not depend on what stands on its own square, so
      the coverage computed for an empty square is the coverage the piece has
      once it is placed there. */
  lemma CoverIgnoresOrigin(occ: Occupancy, p: Point, piece: Piece, v: Piece)
    requires IsPiece(piece)
    ensures Cover(occ[p := v], p, piece) == Cover(occ, p, piece)
  {
    RayIgnoresOrigin(occ, p, 1, 1, v);
    RayIgnoresOrigin(occ, p, -1, 1, v);
    RayIgnoresOrigin(occ, p, 1, -1, v);
    RayIgnoresOrigin(occ, p, -1, -1, v);
    RayIgnoresOrigin(occ, p, 1, 0, v);
    RayIgnoresOrigin(occ, p, 0, 1, v);
    RayIgnoresOrigin(occ, p, -1, 0, v);
    RayIgnoresOrigin(occ, p, 0, -1, v);
  }

  /** Emptying squares never shrinks a bishop's coverage. */
  lemma BishopMonotone(occ: Occupancy, occ': Occupancy, p: Point)
    requires forall q: Point :: IsEmpty(occ, q) ==> IsEmpty(occ', q)
    ensures BishopCoverage(occ, p) <= BishopCoverage(occ', p)
  {
    RayMonotone(occ, occ', p, 1, 1);
    RayMonotone(occ, occ', p, -1, 1);
    RayMonotone(occ, occ', p, 1, -1);
    RayMonotone(occ, occ', p, -1, -1);
  }

  /** Emptying squares never shrinks a rook's coverage. */
  lemma RookMonotone(occ: Occupancy, occ': Occupancy, p: Point)
    requires forall q: Point :: IsEmpty(occ, q) ==> IsEmpty(occ', q)
    ensures RookCoverage(occ, p) <= RookCoverage(occ', p)
  {
    RayMonotone(occ, occ', p, 1, 0);
    RayMonotone(occ, occ', p, 0, 1);
    RayMonotone(occ, occ', p, -1, 0);
    RayMonotone(occ, occ', p, 0, -1);
  }

  /** Emptying squares never takes a square out of a piece's coverage. */
  lemma CoverMonotone(occ: Occupancy, occ': Occupancy, p: Point, piece: Piece)
    requires IsPiece(piece)
    requires forall q: Point :: IsEmpty(occ, q) ==> IsEmpty(occ', q)
    ensures Cover(occ, p, piece) <= Cover(occ', p, piece)
  {
    match piece
    case 1 =>
    case 2 =>
    case 3 => BishopMonotone(occ, occ', p);
    case 4 => RookMonotone(occ, occ', p);
    case 5 =>
      BishopMonotone(occ, occ', p);
      RookMonotone(occ, occ', p);
  }
}

=== FILE: points.dfy ===
/** Board coordinates.  A point is one signed byte holding `x*8 + y` (row-major),
    and every piece of arithmetic on it is int8 arithmetic, which wraps around
    modulo 256; the model writes that wrap-around out with `Wrap8`. */
module Points {

  /** BOARD_SIZE */
  const Size: int := 8

  type Int8 = v: int | -128 <= v < 128

  /** A point that names a square of the board. */
  type Point = p: int | 0 <= p < 64

  /** Two's-complement truncation to a signed byte, as Go's int8 conversions
      and int8 additions and multiplications do. */
  function Wrap8(v: int): (r: Int8)
    ensures -128 <= v < 128 ==> r == v
    ensures 128 <= v < 384 ==> r == v - 256
    ensures -384 <= v < -128 ==> r == v + 256
    ensures (r - v) % 256 == 0
  {
    (v + 128) % 256 - 128
  }

  predicate OnBoard(x: int, y: int) {
    0 <= x < Size && 0 <= y < Size
  }

  /** p.x(): the row of a point.  Go's int8 division truncates, which agrees
      with Dafny's division on the non-negative points of the board. */
  function X(p: Point): (r: int)
    ensures 0 <= r < Size
  {
    p / Size
  }

  /** p.y(): the column of a point. */
  function Y(p: Point): (r: int)
    ensures 0 <= r < Size
  {
    p % Size
  }

  /** The square at coordinates (x, y). */
  function Square(x: int, y: int): (p: Point)
    requires OnBoard(x, y)
    ensures X(p) == x && Y(p) == y
  {
    x * Size + y
  }

  /** newPoint: the point for (x, y) and whether it is on the board. */
  function NewPoint(x: int, y: int): (r: (Int8, bool))
    ensures r.1 <==> OnBoard(x, y)
    ensures r.1 ==> 0 <= r.0 < 64 && X(r.0) == x && Y(r.0) == y
  {
    (Wrap8(x * Size + y), !(x < 0 || x >= Size || y < 0 || y >= Size))
  }

  /** newPointUnsafe: the point for (x, y) without a bounds check. */
  function NewPointUnsafe(x: int, y: int): (r: Int8)
    ensures OnBoard(x, y) ==> 0 <= r < 64 && X(r) == x && Y(r) == y
  {
    Wrap8(x * Size + y)
  }

  /** newPointUnsafe inverts x() and y() on every square. */
  lemma PointCoordinatesRoundTrip(p: Point)
    ensures OnBoard(X(p), Y(p))
    ensures NewPointUnsafe(X(p), Y(p)) == p
  {
  }

  /** p.add(dx, dy): the point offset by (dx, dy), computed in int8, and whether
      the offset coordinates are still on the board.  When they are, the point
      returned is exactly the square at those coordinates, for every pair of
      int8 offsets (no wrap-around can fake a valid result). */
  function Add(p: Point, dx: Int8, dy: Int8): (r: (Int8, bool))
    ensures r.1 <==> OnBoard(X(p) + dx, Y(p) + dy)
    ensures r.1 ==> 0 <= r.0 < 64 && X(r.0) == X(p) + dx && Y(r.0) == Y(p) + dy
  {
    var newX := Wrap8(X(p) + dx);
    var newY := Wrap8(Y(p) + dy);
    (Wrap8(p + Wrap8(Wrap8(dx * Size) + dy)), !(newX < 0 || newX >= Size || newY < 0 || newY >= Size))
  }
}

=== FILE: scenarios.dfy ===
/** The concrete boards of chess/board_test.go: the empty board, a lone queen
    in the corner, and five hand-built boards that cover every square. */
module Scenarios {
  import opened Errors
  import opened Points
  import opened Pieces
  import opened Boards

  /** A compact board holding the given pieces and zero cached values, as the
      tests build them from MinimalBoard{}. */
  function TestBoard(occ: Occupancy): MinimalBoard {
    EmptyMinimalBoard().(board := occ)
  }

  /** The first n squares (row-major) hold `first`, the rest hold `rest`. */
  function Split(n: nat, first: Piece, rest: Piece): (occ: Occupancy)
    requires n <= 64
  {
    seq(64, i => if i < n then first else rest)
  }

  /** One row of rooks. */
  function RookRow(): Occupancy { Split(8, ROOK, NONE) }

  /** One row of queens. */
  function QueenRow(): Occupancy { Split(8, QUEEN, NONE) }

  /** The first four rows full of bishops. */
  function BishopHalf(): Occupancy { Split(32, BISHOP, NONE) }

  /** One row of rooks, every other square a pawn. */
  function RooksAndPawns(): Occupancy { Split(8, ROOK, PAWN) }

  /** Every square a knight. */
  function AllKnights(): Occupancy { Split(64, KNIGHT, NONE) }

  // ----------------------------------------------------------------- helpers

  /** The split board scores n of the first piece and 64 - n of the second. */
  lemma SplitScore(n: nat, first: Piece, rest: Piece)
    requires n <= 64 && IsPiece(first) && (IsPiece(rest) || rest == NONE)
    ensures Score(Inflate(Split(n, first, rest)))
         == Success(n * GetScore(first).value + (if rest == NONE then 0 else (64 - n) * GetScore(rest).value))
  {
    var occ := Split(n, first, rest);
    assert occ == seq(n, _ => first) + seq(64 - n, _ => rest);
    SumScoresRepeat(first, n);
    if rest == NONE {
      SumScoresEmpty(64 - n);
    } else {
      SumScoresRepeat(rest, 64 - n);
    }
    SumScoresAppend(seq(n, _ => first), seq(64 - n, _ => rest));
  }

  /** A square some piece covers is supported once the board is settled. */
  lemma Supported(occ: Occupancy, p: Point, q: Point)
    requires q in CoverOf(occ, p)
    ensures SettledOf(occ)[q].supportedBy != {}
  {
    assert p in SupportersOf(occ, q);
  }

  /** A supporter of q in the settled board is a square whose piece covers q. */
  lemma SupporterCovers(occ: Occupancy, p: Point, q: Point)
    requires p in SettledOf(occ)[q].supportedBy
    ensures q in CoverOf(occ, p)
  {
  }

  /** The k-th square along a clear ray is covered by that ray. */
  lemma AlongRay(occ: Occupancy, p: Point, dx: Int8, dy: Int8, k: int)
    requires IsUnitStep(dx, dy) && 1 <= k && InReach(p, dx, dy, k)
    requires forall j :: 1 <= j < k ==> InReach(p, dx, dy, j) && IsEmpty(occ, StepTo(p, dx, dy, j))
    ensures StepTo(p, dx, dy, k) in Ray(occ, p, dx, dy)
  {
    RayExact(occ, p, dx, dy, StepTo(p, dx, dy, k));
  }

  /** The k-th square along a clear straight ray is covered by a rook. */
  lemma AlongStraightRay(occ: Occupancy, p: Point, dx: Int8, dy: Int8, k: int)
    requires IsUnitStep(dx, dy) && (dx == 0 || dy == 0) && 1 <= k && InReach(p, dx, dy, k)
    requires forall j :: 1 <= j < k ==> InReach(p, dx, dy, j) && IsEmpty(occ, StepTo(p, dx, dy, j))
    ensures StepTo(p, dx, dy, k) in RookCoverage(occ, p)
  {
    AlongRay(occ, p, dx, dy, k);
  }

  /** The k-th square along a clear diagonal ray is covered by a bishop. */
  lemma AlongDiagonalRay(occ: Occupancy, p: Point, dx: Int8, dy: Int8, k: int)
    requires IsUnitStep(dx, dy) && dx != 0 && dy != 0 && 1 <= k && InReach(p, dx, dy, k)
    requires forall j :: 1 <= j < k ==> InReach(p, dx, dy, j) && IsEmpty(occ, StepTo(p, dx, dy, j))
    ensures StepTo(p, dx, dy, k) in BishopCoverage(occ, p)
  {
    AlongRay(occ, p, dx, dy, k);
  }

  /** A rook or a queen on p covers whatever a rook on p would. */
  lemma RookMoveCovers(occ: Occupancy, p: Point, q: Point)
    requires occ[p] == ROOK || occ[p] == QUEEN
    requires q in RookCoverage(occ, p)
    ensures SettledOf(occ)[q].supportedBy != {}
  {
    assert q in CoverOf(occ, p);
    Supported(occ, p, q);
  }

  /** A board whose every square is covered by some piece is solved once
      rebuilt: its coverage level is 64. */
  lemma RebuiltSolved(occ: Occupancy)
    requires AllKnown(occ)
    requires forall q: Point :: SettledOf(occ)[q].supportedBy != {}
    ensures RebuildBoard(TestBoard(occ)) == Success(SettledOf(occ))
    ensures CoverageLevel(SettledOf(occ)) == 64
  {
  }

  // ------------------------------------------------------------- empty board

  /** The rebuilt empty board has no supported cell. */
  lemma EmptyBoardUnsupported()
    ensures RebuildBoard(EmptyMinimalBoard()).Success?
    ensures forall q: Point :: RebuildBoard(EmptyMinimalBoard()).value[q].supportedBy == {}
  {
    var occ := EmptyMinimalBoard().board;
    forall q: Point
      ensures SupportersOf(occ, q) == {}
    {
      forall s: Point
        ensures s !in SupportersOf(occ, q)
      {
        assert CoverOf(occ, s) == {};
      }
    }
  }

  // --------------------------------------------------------------- lone queen

  /** The empty board rebuilt, a queen put on (0, 0), and the support graph
      settled again. */
  function LoneQueen(): (b: Board)
  {
    var empty := RebuildBoard(EmptyMinimalBoard()).value;
    var withQueen := empty[0 := empty[0].(piece := QUEEN)];
    Settle(withQueen).value
  }

  /** The pieces of the lone-queen board: a queen on square 0 only. */
  lemma LoneQueenPieces()
    ensures forall s: Point :: PiecesOf(LoneQueen())[s] == if s == 0 then QUEEN else NONE
  {
  }

  /** A square the piece on p covers has p among its supporters once the
      board is settled. */
  lemma SupportedBy(occ: Occupancy, p: Point, q: Point)
    requires q in CoverOf(occ, p)
    ensures p in SettledOf(occ)[q].supportedBy
  {
  }

  /** A queen on square 0 and nothing else. */
  function QueenCorner(): Occupancy { Split(1, QUEEN, NONE) }

  /** The lone-queen board is the settled form of a queen on square 0. */
  lemma LoneQueenSettled()
    ensures LoneQueen() == SettledOf(QueenCorner())
  {
    LoneQueenPieces();
    assert PiecesOf(LoneQueen()) == QueenCorner();
  }

  /** A queen covers whatever a rook or a bishop on its square would. */
  lemma QueenMoveCovers(occ: Occupancy, p: Point, q: Point)
    requires occ[p] == QUEEN
    requires q in RookCoverage(occ, p) || q in BishopCoverage(occ, p)
    ensures q in CoverOf(occ, p)
  {
    QueenCoverOf(occ, p);
  }

  /** A queen's square covers exactly the queen's coverage. */
  lemma QueenCoverOf(occ: Occupancy, p: Point)
    requires occ[p] == QUEEN
    ensures CoverOf(occ, p) == QueenCoverage(occ, p)
  {
    assert IsPiece(occ[p]) && Cover(occ, p, QUEEN) == QueenCoverage(occ, p);
  }

  /** Only the corner is occupied, so every ray from it is clear. */
  lemma CornerClear(dx: Int8, dy: Int8, i: int)
    requires IsUnitStep(dx, dy) && 0 <= dx && 0 <= dy
    requires 1 <= i < Size
    ensures forall j :: 1 <= j < i ==> InReach(0, dx, dy, j) && IsEmpty(QueenCorner(), StepTo(0, dx, dy, j))
  {
    forall j | 1 <= j < i
      ensures InReach(0, dx, dy, j) && IsEmpty(QueenCorner(), StepTo(0, dx, dy, j))
    {
      assert StepTo(0, dx, dy, j) != 0;
    }
  }

  /** The queen covers the i-th square of a straight ray from the corner. */
  lemma LoneQueenStraight(dx: Int8, dy: Int8, i: int)
    requires (dx, dy) == (1, 0) || (dx, dy) == (0, 1)
    requires 1 <= i < Size
    ensures InReach(0, dx, dy, i) && StepTo(0, dx, dy, i) in CoverOf(QueenCorner(), 0)
  {
    CornerClear(dx, dy, i);
    AlongStraightRay(QueenCorner(), 0, dx, dy, i);
    QueenMoveCovers(QueenCorner(), 0, StepTo(0, dx, dy, i));
  }

  /** The queen covers the i-th square of the diagonal from the corner. */
  lemma LoneQueenDiagonal(i: int)
    requires 1 <= i < Size
    ensures InReach(0, 1, 1, i) && StepTo(0, 1, 1, i) in CoverOf(QueenCorner(), 0)
  {
    CornerClear(1, 1, i);
    AlongDiagonalRay(QueenCorner(), 0, 1, 1, i);
    QueenMoveCovers(QueenCorner(), 0, StepTo(0, 1, 1, i));
  }

  /** The queen on (0, 0) supports (i, 0), (0, i) and (i, i) for 1 <= i < 8. */
  lemma LoneQueenSupports(i: int)
    requires 1 <= i < Size
    ensures 0 in LoneQueen()[Square(i, 0)].supportedBy
    ensures 0 in LoneQueen()[Square(0, i)].supportedBy
    ensures 0 in LoneQueen()[Square(i, i)].supportedBy
  {
    LoneQueenSettled();
    LoneQueenStraight(1, 0, i);
    assert StepTo(0, 1, 0, i) == Square(i, 0);
    SupportedBy(QueenCorner(), 0, Square(i, 0));
    LoneQueenStraight(0, 1, i);
    assert StepTo(0, 0, 1, i) == Square(0, i);
    SupportedBy(QueenCorner(), 0, Square(0, i));
    LoneQueenDiagonal(i);
    assert StepTo(0, 1, 1, i) == Square(i, i);
    SupportedBy(QueenCorner(), 0, Square(i, i));
  }

  /** Every ray from the corner runs along row 0, column 0 or the diagonal. */
  lemma FromCorner(occ: Occupancy, dx: int, dy: int, s: Point)
    requires IsUnitStep(dx, dy) && OnRay(occ, 0, dx, dy, s)
    ensures X(s) == 0 || Y(s) == 0 || X(s) == Y(s)
  {
    var k :| 1 <= k && InReach(0, dx, dy, k) && StepTo(0, dx, dy, k) == s && ClearBefore(occ, 0, dx, dy, k);
    assert X(s) == Offset(k, dx) && Y(s) == Offset(k, dy);
  }

  /** A diagonal ray from the corner stays on the diagonal, row 0 or column 0. */
  lemma CornerDiagonal(occ: Occupancy, s: Point)
    requires OnDiagonalRay(occ, 0, s)
    ensures X(s) == 0 || Y(s) == 0 || X(s) == Y(s)
  {
    if OnRay(occ, 0, 1, 1, s) { FromCorner(occ, 1, 1, s); }
    else if OnRay(occ, 0, -1, 1, s) { FromCorner(occ, -1, 1, s); }
    else if OnRay(occ, 0, 1, -1, s) { FromCorner(occ, 1, -1, s); }
    else { FromCorner(occ, -1, -1, s); }
  }

  /** A straight ray from the corner stays on row 0 or column 0. */
  lemma CornerStraight(occ: Occupancy, s: Point)
    requires OnStraightRay(occ, 0, s)
    ensures X(s) == 0 || Y(s) == 0 || X(s) == Y(s)
  {
    if OnRay(occ, 0, 1, 0, s) { FromCorner(occ, 1, 0, s); }
    else if OnRay(occ, 0, 0, 1, s) { FromCorner(occ, 0, 1, s); }
    else if OnRay(occ, 0, -1, 0, s) { FromCorner(occ, -1, 0, s); }
    else { FromCorner(occ, 0, -1, s); }
  }

  /** Whatever the pieces, a queen in the corner covers only squares of row
      0, column 0 or the diagonal. */
  lemma CornerQueenCoverage(occ: Occupancy, s: Point)
    requires s in QueenCoverage(occ, 0)
    ensures X(s) == 0 || Y(s) == 0 || X(s) == Y(s)
  {
    QueenCoverageExact(occ, 0, s);
    if OnDiagonalRay(occ, 0, s) {
      CornerDiagonal(occ, s);
    } else {
      CornerStraight(occ, s);
    }
  }

  /** Those are the only squares it supports: row 0, column 0 and the main
      diagonal. */
  lemma LoneQueenSupportsOnly(s: Point)
    requires 0 in LoneQueen()[s].supportedBy
    ensures X(s) == 0 || Y(s) == 0 || X(s) == Y(s)
  {
    LoneQueenSettled();
    assert 0 in SettledOf(QueenCorner())[s].supportedBy;
    SupporterCovers(QueenCorner(), 0, s);
    assert QueenCorner()[0] == QUEEN;
    QueenCoverOf(QueenCorner(), 0);
    CornerQueenCoverage(QueenCorner(), s);
  }

  // --------------------------------------------------------- complete boards

  /** A square of the rook row, or the column below it: covered by a rook on
      row 0 (a neighbour for row 0 itself, the rook above otherwise).  The
      piece may be a rook or a queen, whose coverage includes a rook's. */
  lemma RowCovers(occ: Occupancy, piece: Piece, q: Point)
    requires piece == ROOK || piece == QUEEN
    requires forall s: Point :: occ[s] == if X(s) == 0 then piece else NONE
    ensures SettledOf(occ)[q].supportedBy != {}
  {
    if X(q) == 0 {
      NeighbourCovers(occ, q);
    } else {
      ColumnCovers(occ, piece, q);
    }
  }

  /** A square of row 0 is covered by the rook or queen next to it. */
  lemma NeighbourCovers(occ: Occupancy, q: Point)
    requires X(q) == 0
    requires forall s: Point :: X(s) == 0 ==> occ[s] == ROOK || occ[s] == QUEEN
    ensures SettledOf(occ)[q].supportedBy != {}
  {
    if Y(q) > 0 {
      LeftNeighbourCovers(occ, q);
    } else {
      RightNeighbourCovers(occ, q);
    }
  }

  /** The piece to the left of a square of row 0 covers it. */
  lemma LeftNeighbourCovers(occ: Occupancy, q: Point)
    requires X(q) == 0 && Y(q) > 0
    requires forall s: Point :: X(s) == 0 ==> occ[s] == ROOK || occ[s] == QUEEN
    ensures SettledOf(occ)[q].supportedBy != {}
  {
    var p := Square(0, Y(q) - 1);
    assert StepTo(p, 0, 1, 1) == q;
    StraightCovers(occ, p, 0, 1, 1);
  }

  /** The piece to the right of a square of row 0 covers it. */
  lemma RightNeighbourCovers(occ: Occupancy, q: Point)
    requires X(q) == 0 && Y(q) < Size - 1
    requires forall s: Point :: X(s) == 0 ==> occ[s] == ROOK || occ[s] == QUEEN
    ensures SettledOf(occ)[q].supportedBy != {}
  {
    var p := Square(0, Y(q) + 1);
    assert StepTo(p, 0, -1, 1) == q;
    StraightCovers(occ, p, 0, -1, 1);
  }

  /** A rook or queen covers the k-th square of a clear straight ray. */
  lemma StraightCovers(occ: Occupancy, p: Point, dx: Int8, dy: Int8, k: int)
    requires occ[p] == ROOK || occ[p] == QUEEN
    requires IsUnitStep(dx, dy) && (dx == 0 || dy == 0) && 1 <= k && InReach(p, dx, dy, k)
    requires forall j :: 1 <= j < k ==> InReach(p, dx, dy, j) && IsEmpty(occ, StepTo(p, dx, dy, j))
    ensures SettledOf(occ)[StepTo(p, dx, dy, k)].supportedBy != {}
  {
    AlongStraightRay(occ, p, dx, dy, k);
    RookMoveCovers(occ, p, StepTo(p, dx, dy, k));
  }

  /** A square below row 0 is covered by the rook or queen at the top of its
      column, through the empty squares in between. */
  lemma ColumnCovers(occ: Occupancy, piece: Piece, q: Point)
    requires piece == ROOK || piece == QUEEN
    requires forall s: Point :: occ[s] == if X(s) == 0 then piece else NONE
    requires X(q) > 0
    ensures SettledOf(occ)[q].supportedBy != {}
  {
    var p := Square(0, Y(q));
    forall j | 1 <= j < X(q)
      ensures InReach(p, 1, 0, j) && IsEmpty(occ, StepTo(p, 1, 0, j))
    {
      assert X(StepTo(p, 1, 0, j)) == j;
    }
    AlongStraightRay(occ, p, 1, 0, X(q));
    assert StepTo(p, 1, 0, X(q)) == q;
    RookMoveCovers(occ, p, q);
  }

  /** The rook-row board is fully covered and scores 40. */
  lemma RookRowSolved()
    ensures RebuildBoard(TestBoard(RookRow())) == Success(SettledOf(RookRow()))
    ensures CoverageLevel(SettledOf(RookRow())) == 64
    ensures Score(SettledOf(RookRow())) == Success(40)
  {
    var occ := RookRow();
    forall q: Point
      ensures SettledOf(occ)[q].supportedBy != {}
    {
      RowCovers(occ, ROOK, q);
    }
    RebuiltSolved(occ);
    SplitScore(8, ROOK, NONE);
    assert PiecesOf(Inflate(occ)) == PiecesOf(SettledOf(occ));
  }

  /** The queen-row board is fully covered and scores 72. */
  lemma QueenRowSolved()
    ensures RebuildBoard(TestBoard(QueenRow())) == Success(SettledOf(QueenRow()))
    ensures CoverageLevel(SettledOf(QueenRow())) == 64
    ensures Score(SettledOf(QueenRow())) == Success(72)
  {
    var occ := QueenRow();
    forall q: Point
      ensures SettledOf(occ)[q].supportedBy != {}
    {
      RowCovers(occ, QUEEN, q);
    }
    RebuiltSolved(occ);
    SplitScore(8, QUEEN, NONE);
    assert PiecesOf(Inflate(occ)) == PiecesOf(SettledOf(occ));
  }

  /** A square of the rooks-and-pawns board is covered: row 0 by a neighbouring
      rook, row 1 by the rook above it, every later row by a pawn on the row
      before. */
  lemma PawnBoardCovers(q: Point)
    ensures SettledOf(RooksAndPawns())[q].supportedBy != {}
  {
    var occ := RooksAndPawns();
    if X(q) == 0 {
      NeighbourCovers(occ, q);
    } else if X(q) == 1 {
      var p := Square(0, Y(q));
      AlongStraightRay(occ, p, 1, 0, 1);
      assert StepTo(p, 1, 0, 1) == q;
      RookMoveCovers(occ, p, q);
    } else {
      var p := if Y(q) > 0 then Square(X(q) - 1, Y(q) - 1) else Square(X(q) - 1, Y(q) + 1);
      assert q in PawnCoverage(p);
      assert q in CoverOf(occ, p);
      Supported(occ, p, q);
    }
  }

  /** The rooks-and-pawns board is fully covered and scores 96. */
  lemma RooksAndPawnsSolved()
    ensures RebuildBoard(TestBoard(RooksAndPawns())) == Success(SettledOf(RooksAndPawns()))
    ensures CoverageLevel(SettledOf(RooksAndPawns())) == 64
    ensures Score(SettledOf(RooksAndPawns())) == Success(96)
  {
    var occ := RooksAndPawns();
    forall q: Point
      ensures SettledOf(occ)[q].supportedBy != {}
    {
      PawnBoardCovers(q);
    }
    RebuiltSolved(occ);
    SplitScore(8, ROOK, PAWN);
    assert PiecesOf(Inflate(occ)) == PiecesOf(SettledOf(occ));
  }

  /** Every square is a knight's jump from some square. */
  lemma KnightBoardCovers(q: Point)
    ensures SettledOf(AllKnights())[q].supportedBy != {}
  {
    var occ := AllKnights();
    var x, y := X(q), Y(q);
    var p := Square(if x <= 5 then x + 2 else x - 2, if y <= 6 then y + 1 else y - 1);
    assert IsKnightJump(p, q);
    assert q in CoverOf(occ, p);
    Supported(occ, p, q);
  }

  /** The all-knights board is fully covered and scores 192. */
  lemma AllKnightsSolved()
    ensures RebuildBoard(TestBoard(AllKnights())) == Success(SettledOf(AllKnights()))
    ensures CoverageLevel(SettledOf(AllKnights())) == 64
    ensures Score(SettledOf(AllKnights())) == Success(192)
  {
    var occ := AllKnights();
    forall q: Point
      ensures SettledOf(occ)[q].supportedBy != {}
    {
      KnightBoardCovers(q);
    }
    RebuiltSolved(occ);
    SplitScore(64, KNIGHT, NONE);
    assert PiecesOf(Inflate(occ)) == PiecesOf(SettledOf(occ));
  }

  /** A square of the bishop board is covered: the first four rows by a
      diagonal neighbour in those rows, the lower four by the bishop on row 3
      whose diagonal reaches it through empty squares. */
  lemma BishopBoardCovers(q: Point)
    ensures SettledOf(BishopHalf())[q].supportedBy != {}
  {
    if X(q) < 4 {
      BishopNeighbourCovers(q);
    } else if Y(q) >= X(q) - 3 {
      BishopDiagonalCovers(q, 1);
    } else {
      BishopDiagonalCovers(q, -1);
    }
  }

  /** A bishop on p covers whatever a bishop's rays from p reach. */
  lemma BishopMoveCovers(occ: Occupancy, p: Point, q: Point)
    requires occ[p] == BISHOP && q in BishopCoverage(occ, p)
    ensures SettledOf(occ)[q].supportedBy != {}
  {
    assert q in CoverOf(occ, p);
    Supported(occ, p, q);
  }

  /** A square of the first four rows: a bishop diagonally next to it, on
      those rows. */
  lemma BishopNeighbourCovers(q: Point)
    requires X(q) < 4
    ensures SettledOf(BishopHalf())[q].supportedBy != {}
  {
    var occ := BishopHalf();
    var px := if X(q) < 3 then X(q) + 1 else X(q) - 1;
    var dx: Int8 := if X(q) < 3 then -1 else 1;
    var dy: Int8 := if Y(q) > 0 then 1 else -1;
    var p := Square(px, Y(q) - dy);
    AlongDiagonalRay(occ, p, dx, dy, 1);
    assert StepTo(p, dx, dy, 1) == q;
    BishopMoveCovers(occ, p, q);
  }

  /** A square of the lower four rows: the bishop on row 3 whose diagonal
      (towards column dy) reaches it over empty squares. */
  lemma BishopDiagonalCovers(q: Point, dy: Int8)
    requires X(q) >= 4 && (dy == 1 || dy == -1)
    requires dy == 1 ==> Y(q) >= X(q) - 3
    requires dy == -1 ==> Y(q) < X(q) - 3
    ensures SettledOf(BishopHalf())[q].supportedBy != {}
  {
    var occ := BishopHalf();
    var k := X(q) - 3;
    var p := Square(3, Y(q) - Offset(k, dy));
    forall j | 1 <= j < k
      ensures InReach(p, 1, dy, j) && IsEmpty(occ, StepTo(p, 1, dy, j))
    {
      assert X(StepTo(p, 1, dy, j)) == 3 + j;
    }
    AlongDiagonalRay(occ, p, 1, dy, k);
    assert StepTo(p, 1, dy, k) == q;
    BishopMoveCovers(occ, p, q);
  }

  /** The bishop board is fully covered and scores 96. */
  lemma BishopHalfSolved()
    ensures RebuildBoard(TestBoard(BishopHalf())) == Success(SettledOf(BishopHalf()))
    ensures CoverageLevel(SettledOf(BishopHalf())) == 64
    ensures Score(SettledOf(BishopHalf())) == Success(96)
  {
    var occ := BishopHalf();
    forall q: Point
      ensures SettledOf(occ)[q].supportedBy != {}
    {
      BishopBoardCovers(q);
    }
    RebuiltSolved(occ);
    SplitScore(32, BISHOP, NONE);
    assert PiecesOf(Inflate(occ)) == PiecesOf(SettledOf(occ));
  }
}

=== FILE: search.dfy ===
/** Successor generation: stripping redundant pieces (reduce) and placing one
    new piece (ProposeBoards), from chess/board.go. */
module Search {
  import opened Errors
  import opened Points
  import opened Pieces
  import opened Boards

  /** The squares that hold a piece. */
  function Occupied(b: Board): set<Point> {
    set p: Point | 0 <= p < 64 && b[p].piece != NONE
  }

  /** The pieces of `small` stand on the same squares in `big`. */
  predicate SubBoard(small: Occupancy, big: Occupancy) {
    forall p: Point :: small[p] == big[p] || small[p] == NONE
  }

  /** reduce's test: the piece on p is the only supporter of none of the squares
      it supports.  On a settled board that means every square the piece
      covers is covered by at least two pieces. */
  predicate Removable(b: Board, p: Point)
    ensures IsSettled(b) ==>
      (Removable(b, p) <==>
        (b[p].piece != NONE && forall q: Point :: q in CoverOf(PiecesOf(b), p) ==> |SupportersOf(PiecesOf(b), q)| >= 2))
  {
    SupportedSquaresSupported(b, p);
    b[p].piece != NONE && forall q: Point :: q in b[p].supports ==> |b[q].supportedBy| != 1
  }

  /** On a settled board the piece on p is among the supporters of every
      square it supports. */
  lemma SupportedSquaresSupported(b: Board, p: Point)
    ensures IsSettled(b) ==> b[p].supports == CoverOf(PiecesOf(b), p)
    ensures IsSettled(b) ==> forall q: Point :: q in b[p].supports ==>
      b[q].supportedBy == SupportersOf(PiecesOf(b), q) && |b[q].supportedBy| >= 1
  {
    if IsSettled(b) {
      forall q: Point | q in b[p].supports
        ensures b[q].supportedBy == SupportersOf(PiecesOf(b), q) && |b[q].supportedBy| >= 1
      {
        assert p in b[q].supportedBy;
      }
    }
  }

  /** No piece can be removed. */
  predicate LocallyMinimal(b: Board) {
    forall p: Point :: !Removable(b, p)
  }

  /** reduce's step: copy the board, empty square p, settle. */
  function Without(b: Board, p: Point): (r: Board)
    requires IsSettled(b)
    ensures IsSettled(r) && PiecesOf(r) == PiecesOf(b)[p := NONE]
  {
    var c := Copy(b);
    var c' := c[p := c[p].(piece := NONE)];
    assert PiecesOf(c') == PiecesOf(b)[p := NONE];
    Settle(c').value
  }

  /** Removing a piece leaves one piece fewer. */
  lemma WithoutShrinks(b: Board, p: Point)
    requires IsSettled(b) && b[p].piece != NONE
    ensures Occupied(Without(b, p)) < Occupied(b)
  {
    assert Occupied(Without(b, p)) == Occupied(b) - {p};
  }

  /** Removing a removable piece uncovers no square: every square it covered
      has a second supporter, and the rays of the remaining pieces only grow
      once the square is empty. */
  lemma RemovalKeepsCoverage(b: Board, p: Point)
    requires IsSettled(b) && Removable(b, p)
    ensures CoveredSquares(b) <= CoveredSquares(Without(b, p))
  {
    var occ := PiecesOf(b);
    var occ' := occ[p := NONE];
    var w := Without(b, p);
    forall q | q in CoveredSquares(b)
      ensures q in CoveredSquares(w)
    {
      var sup := b[q].supportedBy;
      assert sup == SupportersOf(occ, q);
      var s :| s in sup;
      var t := s;
      if s == p {
        assert q in b[p].supports;
        assert |sup| != 1;
        OtherMember(sup, p);
        t :| t in sup && t != p;
      }
      assert t != p && q in CoverOf(occ, t);
      assert occ'[t] == occ[t];
      CoverMonotone(occ, occ', t, occ[t]);
      assert q in CoverOf(occ', t);
      assert t in SupportersOf(occ', q);
      assert t in w[q].supportedBy;
    }
  }

  /** A set that holds p and is not {p} holds something else. */
  lemma OtherMember<T>(s: set<T>, p: T)
    requires p in s && |s| != 1
    ensures exists t :: t in s && t != p
  {
    assert |s - {p}| == |s| - 1;
    var t :| t in s - {p};
  }

  /** reduce: every locally minimal board reached by removing removable pieces
      one at a time, trying every removable piece at every level.  A board with
      nothing removable is its own only result. */
  function Reduce(b: Board): (r: seq<Board>)
    requires IsSettled(b)
    ensures |r| > 0
    ensures forall c :: c in r ==> IsSettled(c) && SubBoard(PiecesOf(c), PiecesOf(b))
    ensures forall c :: c in r ==> LocallyMinimal(c)
    ensures forall c :: c in r ==> CoveredSquares(b) <= CoveredSquares(c)
    ensures LocallyMinimal(b) ==> r == [b]
    decreases Occupied(b), 1, 0
  {
    var found := ReduceFrom(b, 0);
    if |found| == 0 then [b] else found
  }

  /** The loop of reduce from square i on (row-major): the reductions through
      each removable piece at or after i, concatenated. */
  function ReduceFrom(b: Board, i: nat): (r: seq<Board>)
    requires IsSettled(b) && i <= 64
    ensures |r| == 0 <==> forall p: Point :: i <= p ==> !Removable(b, p)
    ensures forall c :: c in r ==> IsSettled(c) && SubBoard(PiecesOf(c), PiecesOf(b))
    ensures forall c :: c in r ==> LocallyMinimal(c)
    ensures forall c :: c in r ==> CoveredSquares(b) <= CoveredSquares(c)
    decreases Occupied(b), 0, 64 - i
  {
    if i == 64 then []
    else
      var here :=
        if Removable(b, i) then
          WithoutShrinks(b, i);
          RemovalKeepsCoverage(b, i);
          Reduce(Without(b, i))
        else [];
      here + ReduceFrom(b, i + 1)
  }

  /** Completeness of the loop: the reductions through a removable piece at or
      after i all appear among the loop's results. */
  lemma {:induction false} ReduceFromContains(b: Board, i: nat, p: Point, c: Board)
    requires IsSettled(b) && i <= p && Removable(b, p)
    requires c in Reduce(Without(b, p))
    ensures c in ReduceFrom(b, i)
    decreases 64 - i
  {
    if i < p {
      ReduceFromContains(b, i + 1, p, c);
    }
  }

  /** Soundness of the loop: each of its results comes through some removable
      piece at or after i. */
  lemma {:induction false} ReduceFromOnly(b: Board, i: nat, c: Board)
    requires IsSettled(b) && i <= 64 && c in ReduceFrom(b, i)
    ensures exists p: Point :: i <= p && Removable(b, p) && c in Reduce(Without(b, p))
    decreases 64 - i
  {
    if i < 64 {
      if !(Removable(b, i) && c in Reduce(Without(b, i))) {
        ReduceFromOnly(b, i + 1, c);
      }
    }
  }

  /** reduce returns exactly the reductions through every removable piece,
      or the board itself when nothing is removable. */
  lemma ReduceExact(b: Board, c: Board)
    requires IsSettled(b)
    ensures c in Reduce(b)
        <==> (LocallyMinimal(b) && c == b)
             || exists p: Point :: Removable(b, p) && c in Reduce(Without(b, p))
  {
    if c in ReduceFrom(b, 0) {
      ReduceFromOnly(b, 0, c);
    }
    if exists p: Point :: Removable(b, p) && c in Reduce(Without(b, p)) {
      var p: Point :| Removable(b, p) && c in Reduce(Without(b, p));
      ReduceFromContains(b, 0, p, c);
    }
  }

  // ------------------------------------------------------------ ProposeBoards

  /** getAllCoverage: the coverage each of the five pieces would have on square
      p.  Every lookup names a known piece, so the error path is never taken. */
  function GetAllCoverage(b: Board, p: Point): (r: Result<map<Piece, set<Point>>>)
    ensures r.Success?
    ensures forall piece :: piece in r.value <==> IsPiece(piece)
    ensures forall piece :: piece in r.value ==> GetCoverage(PiecesOf(b), p, piece) == Success(r.value[piece])
    ensures forall piece :: piece in r.value ==> p !in r.value[piece]
  {
    Success(map piece | piece in {PAWN, KNIGHT, ROOK, BISHOP, QUEEN} :: Cover(PiecesOf(b), p, piece))
  }

  /** Some square of the coverage has an empty supportedBy set. */
  predicate CoversNew(b: Board, coverage: set<Point>) {
    exists q :: q in coverage && b[q].supportedBy == {}
  }

  /** ProposeBoards' step: copy the board, put the piece on p, settle. */
  function Placed(b: Board, p: Point, piece: Piece): (r: Board)
    requires IsSettled(b) && IsPiece(piece)
    ensures IsSettled(r) && PiecesOf(r) == PiecesOf(b)[p := piece]
  {
    var c := Copy(b);
    var c' := c[p := c[p].(piece := piece)];
    assert PiecesOf(c') == PiecesOf(b)[p := piece];
    Settle(c').value
  }

  /** The pieces of `after` are those of `before` with at most the piece on
      `added` new, on a square that was empty, and possibly some removed. */
  predicate AddsAtMost(before: Occupancy, after: Occupancy, added: Point) {
    before[added] == NONE && forall q: Point :: q != added ==> after[q] == before[q] || after[q] == NONE
  }

  /** Some square uncovered on b is covered once `after` is settled. */
  predicate GainsASquare(b: Board, after: Occupancy) {
    exists q: Point :: b[q].supportedBy == {} && SupportersOf(after, q) != {}
  }

  /** What a compact board produced by ProposeBoards from b satisfies. */
  predicate IsProposal(b: Board, heuristic: Heuristic, m: MinimalBoard) {
    && (exists p: Point :: AddsAtMost(PiecesOf(b), m.board, p))
    && GainsASquare(b, m.board)
    && AllKnown(m.board)
    && LocallyMinimal(SettledOf(m.board))
    && GetMinimalBoard(SettledOf(m.board), heuristic) == Success(m)
  }

  /** The compact boards one placement contributes: nothing unless the piece
      would cover a square nobody covers yet; otherwise every reduction of the
      board with the piece placed. */
  function PlacementResults(b: Board, heuristic: Heuristic, p: Point, piece: Piece): (r: set<MinimalBoard>)
    requires IsSettled(b) && IsPiece(piece) && b[p].piece == NONE
    ensures forall m :: m in r ==> IsProposal(b, heuristic, m)
  {
    var coverage := GetAllCoverage(b, p).value[piece];
    if CoversNew(b, coverage) then
      var placed := Placed(b, p, piece);
      var reduced := Reduce(placed);
      PlacementGains(b, p, piece);
      PlacementShape(b, heuristic, p, piece);
      set c | c in reduced :: GetMinimalBoard(c, heuristic).value
    else {}
  }

  /** The placed board covers a square b left uncovered. */
  lemma PlacementGains(b: Board, p: Point, piece: Piece)
    requires IsSettled(b) && IsPiece(piece) && b[p].piece == NONE
    requires CoversNew(b, Cover(PiecesOf(b), p, piece))
    ensures exists q: Point :: b[q].supportedBy == {} && q in CoveredSquares(Placed(b, p, piece))
  {
    var occ := PiecesOf(b);
    var q :| q in Cover(occ, p, piece) && b[q].supportedBy == {};
    CoverIgnoresOrigin(occ, p, piece, piece);
    var placed := Placed(b, p, piece);
    assert q in CoverOf(occ[p := piece], p);
    assert p in SupportersOf(occ[p := piece], q);
    assert q in CoveredSquares(placed);
  }

  /** One reduction of the placed board, compacted, is a proposal. */
  lemma ReductionIsProposal(b: Board, heuristic: Heuristic, p: Point, piece: Piece, q: Point, c: Board)
    requires IsSettled(b) && IsPiece(piece) && b[p].piece == NONE
    requires b[q].supportedBy == {} && q in CoveredSquares(Placed(b, p, piece))
    requires c in Reduce(Placed(b, p, piece))
    ensures IsProposal(b, heuristic, GetMinimalBoard(c, heuristic).value)
  {
    var placed := Placed(b, p, piece);
    var m := GetMinimalBoard(c, heuristic).value;
    assert m.board == PiecesOf(c);
    assert SubBoard(PiecesOf(c), PiecesOf(placed));
    assert AddsAtMost(PiecesOf(b), m.board, p);
    assert q in CoveredSquares(c);
    assert SupportersOf(m.board, q) == c[q].supportedBy;
    assert GainsASquare(b, m.board);
    assert SettledOf(m.board) == c;
  }

  /** Every reduction of the placed board, compacted, is a proposal. */
  lemma PlacementShape(b: Board, heuristic: Heuristic, p: Point, piece: Piece)
    requires IsSettled(b) && IsPiece(piece) && b[p].piece == NONE
    requires CoversNew(b, Cover(PiecesOf(b), p, piece))
    ensures forall c :: c in Reduce(Placed(b, p, piece)) ==> IsProposal(b, heuristic, GetMinimalBoard(c, heuristic).value)
  {
    var placed := Placed(b, p, piece);
    PlacementGains(b, p, piece);
    var q: Point :| b[q].supportedBy == {} && q in CoveredSquares(placed);
    forall c: Board | c in Reduce(placed)
      ensures IsProposal(b, heuristic, GetMinimalBoard(c, heuristic).value)
    {
      ReductionIsProposal(b, heuristic, p, piece, q, c);
    }
  }

  /** The proposals from one square: nothing when it is occupied, otherwise the
      five placements in the order pawn, knight, rook, bishop, queen. */
  function SquareResults(b: Board, heuristic: Heuristic, p: Point): (r: set<MinimalBoard>)
    requires IsSettled(b)
    ensures forall m :: m in r ==> IsProposal(b, heuristic, m)
  {
    if b[p].piece != NONE then {}
    else
      PlacementResults(b, heuristic, p, PAWN) + PlacementResults(b, heuristic, p, KNIGHT)
      + PlacementResults(b, heuristic, p, ROOK) + PlacementResults(b, heuristic, p, BISHOP)
      + PlacementResults(b, heuristic, p, QUEEN)
  }

  /** The proposals from the squares at or after p (row-major). */
  function ProposeFrom(b: Board, heuristic: Heuristic, p: nat): (r: set<MinimalBoard>)
    requires IsSettled(b) && p <= 64
    ensures forall m :: m in r ==> IsProposal(b, heuristic, m)
    decreases 64 - p
  {
    if p == 64 then {} else SquareResults(b, heuristic, p) + ProposeFrom(b, heuristic, p + 1)
  }

  /** ProposeBoards: every compact board reachable by putting one piece on one
      empty square where it covers a square nobody covers yet, then reducing.
      Each result adds at most that one piece, may drop others, covers a square
      the input left uncovered, is locally minimal, and carries the cached
      values of its own settled board. */
  function ProposeBoards(b: Board, heuristic: Heuristic): (r: set<MinimalBoard>)
    requires IsSettled(b)
    ensures forall m :: m in r ==> IsProposal(b, heuristic, m)
  {
    ProposeFrom(b, heuristic, 0)
  }

  /** One placement that ProposeBoards tries: an empty square, a piece, and the
      piece covering a square nobody covers yet. */
  predicate IsCandidate(b: Board, p: Point, piece: Piece) {
    b[p].piece == NONE && IsPiece(piece) && CoversNew(b, Cover(PiecesOf(b), p, piece))
  }

  /** The compact boards of the reductions after one placement. */
  ghost predicate FromPlacement(b: Board, heuristic: Heuristic, p: Point, piece: Piece, m: MinimalBoard)
    requires IsSettled(b)
  {
    IsCandidate(b, p, piece)
    && exists c :: c in Reduce(Placed(b, p, piece)) && m == GetMinimalBoard(c, heuristic).value
  }

  /** Some piece placed on square s yields m. */
  ghost predicate PlacedAt(b: Board, heuristic: Heuristic, s: Point, m: MinimalBoard)
    requires IsSettled(b)
  {
    exists piece: Piece :: FromPlacement(b, heuristic, s, piece, m)
  }

  /** One square contributes exactly the compact reductions of its candidates. */
  lemma SquareExact(b: Board, heuristic: Heuristic, p: Point, m: MinimalBoard)
    requires IsSettled(b)
    ensures m in SquareResults(b, heuristic, p) <==> PlacedAt(b, heuristic, p, m)
  {
    if b[p].piece == NONE {
      PieceCases(b, heuristic, p, m);
    } else {
      forall piece: Piece
        ensures !FromPlacement(b, heuristic, p, piece, m)
      {
      }
    }
  }

  /** A square at or after p is p itself or a square at or after p + 1. */
  lemma PlacedFromSplit(b: Board, heuristic: Heuristic, p: Point, m: MinimalBoard)
    requires IsSettled(b)
    ensures (exists s: Point :: p <= s && PlacedAt(b, heuristic, s, m))
        <==> PlacedAt(b, heuristic, p, m) || exists s: Point :: p + 1 <= s && PlacedAt(b, heuristic, s, m)
  {
    if exists s: Point :: p <= s && PlacedAt(b, heuristic, s, m) {
      var s: Point :| p <= s && PlacedAt(b, heuristic, s, m);
      if s > p {
        assert p + 1 <= s;
      }
    }
  }

  /** ProposeBoards returns exactly the compact reductions of every candidate
      placement on every empty square, and nothing else. */
  lemma {:induction false} ProposeFromExact(b: Board, heuristic: Heuristic, p: nat, m: MinimalBoard)
    requires IsSettled(b) && p <= 64
    ensures m in ProposeFrom(b, heuristic, p) <==> exists s: Point :: p <= s && PlacedAt(b, heuristic, s, m)
    decreases 64 - p
  {
    if p < 64 {
      ProposeFromExact(b, heuristic, p + 1, m);
      SquareExact(b, heuristic, p, m);
      PlacedFromSplit(b, heuristic, p, m);
    }
  }

  /** A placement contributes exactly the compact reductions of a candidate. */
  lemma PlacementExact(b: Board, heuristic: Heuristic, p: Point, piece: Piece, m: MinimalBoard)
    requires IsSettled(b) && IsPiece(piece) && b[p].piece == NONE
    ensures m in PlacementResults(b, heuristic, p, piece) <==> FromPlacement(b, heuristic, p, piece, m)
  {
  }

  /** The candidates on one square are among the five pieces tried. */
  lemma CandidatePieces(b: Board, heuristic: Heuristic, p: Point, m: MinimalBoard)
    requires IsSettled(b)
    ensures (exists piece: Piece :: FromPlacement(b, heuristic, p, piece, m))
        <==> (FromPlacement(b, heuristic, p, PAWN, m) || FromPlacement(b, heuristic, p, KNIGHT, m)
              || FromPlacement(b, heuristic, p, ROOK, m) || FromPlacement(b, heuristic, p, BISHOP, m)
              || FromPlacement(b, heuristic, p, QUEEN, m))
  {
    if exists piece: Piece :: FromPlacement(b, heuristic, p, piece, m) {
      var piece: Piece :| FromPlacement(b, heuristic, p, piece, m);
      assert piece == PAWN || piece == KNIGHT || piece == BISHOP || piece == ROOK || piece == QUEEN;
    }
  }

  /** On an empty square the five placements are exactly the candidates. */
  lemma PieceCases(b: Board, heuristic: Heuristic, p: Point, m: MinimalBoard)
    requires IsSettled(b) && b[p].piece == NONE
    ensures (m in PlacementResults(b, heuristic, p, PAWN) || m in PlacementResults(b, heuristic, p, KNIGHT)
             || m in PlacementResults(b, heuristic, p, ROOK) || m in PlacementResults(b, heuristic, p, BISHOP)
             || m in PlacementResults(b, heuristic, p, QUEEN))
        <==> exists piece: Piece :: FromPlacement(b, heuristic, p, piece, m)
  {
    PlacementExact(b, heuristic, p, PAWN, m);
    PlacementExact(b, heuristic, p, KNIGHT, m);
    PlacementExact(b, heuristic, p, ROOK, m);
    PlacementExact(b, heuristic, p, BISHOP, m);
    PlacementExact(b, heuristic, p, QUEEN, m);
    CandidatePieces(b, heuristic, p, m);
  }

  /** The characterization of ProposeBoards over the whole board. */
  lemma ProposeBoardsExact(b: Board, heuristic: Heuristic, m: MinimalBoard)
    requires IsSettled(b)
    ensures m in ProposeBoards(b, heuristic) <==> exists s: Point, piece: Piece :: FromPlacement(b, heuristic, s, piece, m)
  {
    ProposeFromExact(b, heuristic, 0, m);
    if exists s: Point, piece: Piece :: FromPlacement(b, heuristic, s, piece, m) {
      var s: Point, piece: Piece :| FromPlacement(b, heuristic, s, piece, m);
      assert PlacedAt(b, heuristic, s, m);
    }
  }
}
